=== FILE: README.md ===
# Starbucks menu analysis: the numbers behind the charts

`generate_charts.py` loads the Starbucks drink menu and draws twelve business
charts. This project models the computation behind those charts in Dafny and
proves properties of it. The model covers two parts:

- **Loading and normalisation.** The four "% DV" columns are turned into numbers.
  Caffeine and total fat are coerced to numbers, or to missing. A `Size` label and a
  `Milk_Type` label are derived from the preparation text.
- **The per-chart aggregates.** These are per-category statistics sorted by mean, the
  size means in a fixed order, caffeine and milk means, category counts, the
  low-calorie share and the colour bands, the fifteen highest-calorie drinks with
  their labels, and the size progression of the five largest categories.

Numbers are exact reals, not floating point. pandas' grouping lists keys in Python
string order, modelled as `Text.LexLess`. pandas' sorts are not stable. So for every
sort the model promises the order of the keys and the same multiset of entries, and
nothing about the order of ties.

Modules, following the flow of the script:

| file | module | contents |
|---|---|---|
| results.dfy | `Results` | `Option` and `Result` |
| text.dfy | `Text` | substring test, `[:n]`, `rstrip`, string order |
| numeric.dfy | `Numeric` | decimal text to number (`astype(float)`, `to_numeric`) |
| stats.dfy | `Stats` | sum, min, max, mean, NaN-skipping mean, share below a threshold |
| sorting.dfy | `Sorting` | `sort_values` both ways, `nlargest`, totals |
| menu.dfy | `Menu` | raw and normalised rows, percentage parsing, derived labels |
| grouping.dfy | `Grouping` | `groupby` keys and groups, boolean-mask selection |
| charts.dfy | `Charts` | the twelve charts' data |
| pipeline.dfy | `Pipeline` | the script end to end |

## Model

| member | source | states |
|---|---|---|
| Text.ContainsIffOccurs | generate_charts.py:36 | The scanning substring test used for `s in str(x)` holds exactly when the text occurs at some position. |
| Text.Truncate | generate_charts.py:305 | `s[:n]` has length min(|s|, n) and is a prefix of `s`. |
| Text.StripTrailing | generate_charts.py:29 | `rstrip('%')` leaves a prefix that does not end in '%', and everything removed was '%'. |
| Text.StripTrailingAbsorbs | generate_charts.py:29 | One more trailing '%' never changes what `rstrip('%')` leaves. |
| Text.LexLessIrreflexive | generate_charts.py:51 | No group key sorts before itself. |
| Text.LexLessTransitive | generate_charts.py:51 | The order of group keys is transitive. |
| Text.LexLessTotal | generate_charts.py:51 | Two different group keys are always ordered, so `groupby` has one key order. |
| Numeric.ParseNumber | generate_charts.py:29 | A string accepted as a number consists only of digits, '.' and a leading sign, and has at least one digit. |
| Numeric.ParseRejectsDigitless | generate_charts.py:32 | Text without a digit (a placeholder such as "Varies") is never a number. |
| Numeric.NatRoundTrip | generate_charts.py:29 | Writing a whole number in decimal and parsing it back gives the number. |
| Numeric.NegativeRoundTrip | generate_charts.py:29 | "-" followed by a whole number parses to its negative. |
| Numeric.ParseDecimalFraction | generate_charts.py:29 | Digits, '.', digits parse to the whole part plus the fraction digits over a power of ten. |
| Numeric.FractionRoundTrip | generate_charts.py:29 | `w.f` written in decimal parses to w + f / 10^(digits of f). |
| Stats.Min | generate_charts.py:51 | The minimum is one of the values and no value is smaller. |
| Stats.Max | generate_charts.py:51 | The maximum is one of the values and no value is larger. |
| Stats.SumBounds | generate_charts.py:51 | Bounds on every value bound the sum by the count times the bound. |
| Stats.MeanWithin | generate_charts.py:51 | A sample whose values all lie in [lo, hi] has its mean in [lo, hi]. |
| Stats.Mean | generate_charts.py:51 | The mean lies between the smallest and the largest value. |
| Stats.MeanPositive | generate_charts.py:128 | The mean of strictly positive readings is strictly positive. |
| Stats.Present | generate_charts.py:155 | The present values are those of the non-missing readings, each value as often as it is present among the readings. |
| Stats.AllMissing | generate_charts.py:155 | The missing count equals the number of readings exactly when every reading is missing. |
| Stats.MeanSkipMissing | generate_charts.py:155 | `mean()` skips NaN: it is missing exactly when every reading is missing, else it is the mean of the present values. |
| Stats.CountBelowAll | generate_charts.py:247 | `(x < t).sum()` equals the length exactly when every value is below `t`. |
| Stats.CountBelowNone | generate_charts.py:247 | `(x < t).sum()` is zero exactly when no value is below `t`. |
| Stats.CountBelowPositions | generate_charts.py:247 | `(x < t).sum()` is the number of positions whose value is below `t`. |
| Stats.PercentBelow | generate_charts.py:247 | The share below `t` is 100 times the number of positions below `t` over the number of values. It lies in [0, 100]; it is 100 exactly when all values are below `t` and 0 exactly when none is. |
| Stats.PercentBelowExample | generate_charts.py:245-247 | Calories 100, 200, 140 and 160 against the threshold 150 give a share of 50%. |
| Sorting.Insert | generate_charts.py:51 | Inserting into a non-increasing sequence keeps it non-increasing and adds exactly one element. |
| Sorting.SortDescending | generate_charts.py:51 | `sort_values(ascending=False)` returns a permutation in non-increasing key order. |
| Sorting.SortAscending | generate_charts.py:193 | `sort_values(ascending=True)` returns a permutation in non-decreasing key order. |
| Sorting.TotalSortDescending | generate_charts.py:51 | Sorting does not change the total of any weight. |
| Sorting.TotalSortAscending | generate_charts.py:193 | Sorting by count keeps the total of the counts. |
| Sorting.Largest | generate_charts.py:304 | `nlargest(n)` keeps min(n, length) entries, sorted, taken from the input, and nothing left out has a larger key than anything kept. |
| Sorting.DistinctBySubset | generate_charts.py:51 | Taking a sub-multiset keeps names distinct. |
| Sorting.Reordered | generate_charts.py:51 | A reordering has the same members and keeps names distinct. |
| Menu.ParsePercent | generate_charts.py:29 | A missing cell stays missing. A failure only comes from present text, and reports the non-empty remainder after `rstrip('%')`. |
| Menu.PercentIgnoresTrailingSigns | generate_charts.py:29 | Trailing '%' signs never change the reading of a cell. |
| Menu.PercentWithoutSign | generate_charts.py:29 | Text without a trailing '%' reads as a plain numeral, and fails exactly when it is not one. |
| Menu.PercentRoundTrip | generate_charts.py:29 | "n%" reads as n. |
| Menu.PercentSignsOnlyIsZero | generate_charts.py:29 | A cell made only of '%' signs becomes '' and is replaced by 0. |
| Menu.CoerceNumber | generate_charts.py:32 | `to_numeric(errors='coerce')` gives a number exactly for numeral text, and missing otherwise. |
| Menu.FirstMatch | generate_charts.py:36 | Finds the first vocabulary entry occurring in the text, or reports that none occurs. |
| Menu.DeriveSize | generate_charts.py:35-36 | The size label is the first of Short, Tall, Grande, Venti that occurs in the preparation, and "Other" exactly when none does. |
| Menu.DeriveMilkType | generate_charts.py:39-40 | The milk label is the first of the four milks that occurs in the preparation, and "No Milk" exactly when none does. |
| Menu.ShortBeatsTall | generate_charts.py:36 | When both "Short" and "Tall" occur, the size is Short (list order wins, not position in the text). |
| Menu.ShortNonfatExample | generate_charts.py:35-40 | "Short Nonfat Milk" is a Short with Nonfat Milk. |
| Menu.NormalizeRow | generate_charts.py:27-40 | One row normalised on its own fails only with the error of one of its four percentage cells. `Menu.NormalizeRowOk` states when it loads and what the loaded row holds. |
| Menu.NormalizeRowOk | generate_charts.py:27-40 | A row loads exactly when all four of its percentage cells do. The loaded row then holds the four converted percentages, the raw names and nutrients, caffeine and total fat coerced, and the derived size and milk labels. |
| Menu.ParseColumn | generate_charts.py:28-29 | Converting one column succeeds exactly when every cell converts. On success it holds each cell's value; on failure it reports a bad cell. |
| Menu.ReadAsText | generate_charts.py:29 | `read_csv` reads a percentage column as text when the table has no rows or some field of it is not a number. That second condition is `Menu.HasTextField`. Otherwise `.str` raises. |
| Menu.HasTextField | generate_charts.py:29 | Some field of the column is not a number. |
| Menu.ConvertColumn | generate_charts.py:29 | Converting one column succeeds exactly when the column is read as text and every cell converts. It then holds each cell's value. A failure is the column's `.str` error or some bad cell's error. |
| Menu.TextColumnHasPercentSign | generate_charts.py:29 | When every cell of a non-empty column converts, the column is read as text exactly when some cell is blank text or ends in '%'. A column of bare numbers stops the script. |
| Menu.Normalize | generate_charts.py:27-40 | The load succeeds exactly when all four percentage columns are read as text and every row normalises on its own. It then agrees with the per-row result. |
| Menu.NormalizeError | generate_charts.py:28-29 | A failed load names a percentage column read as numbers, or is some cell's error. |
| Menu.TextColumnsAll | generate_charts.py:27-29 | The four converted columns are all the percentage columns. |
| Menu.NormalizeAgrees | generate_charts.py:27-29 | Every row loading is the same as every percentage cell of every row converting. |
| Menu.NormalizedLabels | generate_charts.py:35-40 | After a load every row has one of the four sizes or "Other", and one of the four milks or "No Milk". |
| Grouping.Group | generate_charts.py:51 | A group holds exactly the rows with that key, each as often as it occurs in the table. |
| Grouping.InsertKey | generate_charts.py:51 | Adding a key keeps the key list strictly increasing. Its members are the old ones plus the key, so a key already listed changes nothing. |
| Grouping.GroupKeys | generate_charts.py:51 | The `groupby` index is strictly increasing in string order and lists exactly the keys some row has. |
| Grouping.OccurrencesOnce | generate_charts.py:193 | A key occurs once in a list of distinct keys. |
| Grouping.GroupSizesPartition | generate_charts.py:193 | Groups over distinct keys that cover every row have sizes adding up to the number of rows. |
| Grouping.Where | generate_charts.py:103 | A boolean mask keeps exactly the rows satisfying it, each as often as it occurs in the table. |
| Grouping.GroupWhere | generate_charts.py:128 | Selecting and then grouping gives the same group as grouping and then selecting. |
| Grouping.GroupWhereKept | generate_charts.py:155 | A mask that keeps every row labelled `k` leaves group `k` unchanged. |
| Grouping.GroupAppendOther | generate_charts.py:103 | Adding a row with another key leaves group `k` unchanged. |
| Charts.Members | generate_charts.py:51 | A category's rows are exactly the rows with that category, each as often as it occurs in the table. There is at least one exactly when it is a category. |
| Charts.StatOf | generate_charts.py:51 | A category's mean lies between its minimum and maximum. |
| Charts.StatOfRange | generate_charts.py:51 | The minimum and maximum are calories that rows of the category have and that bound all of them. The mean is over exactly that category's rows. |
| Charts.KeyedTable | generate_charts.py:51 | A table built over the group keys names every category exactly once. |
| Charts.CategoryStats | generate_charts.py:51 | One entry per category, each that category's statistics, with no category repeated, sorted by mean with the largest first. |
| Charts.ErrorBars | generate_charts.py:57-59 | The error bars are non-negative and reach from the mean down to the minimum and up to the maximum. |
| Charts.TallyTableTotal | generate_charts.py:193 | The tallies over some keys add up to those keys' group sizes. |
| Charts.TalliesTotal | generate_charts.py:193 | The tallies over all group keys add up to the number of rows. |
| Charts.Tallies | generate_charts.py:193 | One tally per category with its row count, names distinct, counts adding up to the table size. |
| Charts.CategoryCounts | generate_charts.py:193 | Every category once, each with its positive row count, sorted with the fewest first, counts adding up to the number of rows. |
| Charts.CoverageOf | generate_charts.py:245-247 | A category's low-calorie share is 100 times its number of drinks under 150 calories over its number of drinks. It lies in [0, 100]. It is 100 exactly when every drink has under 150 calories, and 0 exactly when none has. |
| Charts.LowCalorieColumn | generate_charts.py:247 | The calorie column has its values under 150 at exactly the positions of the low-calorie rows. |
| Charts.LowCalorieCoverage | generate_charts.py:246-248 | Every category's share once, with the largest first. |
| Charts.ProteinColour | generate_charts.py:222 | Red exactly below 5 g, yellow exactly from 5 g to below 10 g, green exactly from 10 g. |
| Charts.CoverageColour | generate_charts.py:253-259 | Green exactly from 50%, yellow exactly from 25% to below 50%, red exactly below 25%. |
| Charts.ProteinColourMonotone | generate_charts.py:222 | More protein never gives a lower colour band. |
| Charts.CoverageColourMonotone | generate_charts.py:253-259 | A larger share never gives a lower colour band. |
| Charts.ProteinColours | generate_charts.py:217-224 | One colour per bar. Over bars sorted by mean, greens come before yellows and yellows before reds. |
| Charts.CoverageColours | generate_charts.py:248-259 | One colour per bar. Over bars sorted by share, greens come before yellows and yellows before reds. |
| Charts.ListedSizeGroups | generate_charts.py:103 | Keeping only the four listed sizes leaves the group of each of them unchanged. |
| Charts.SizeMeanOf | generate_charts.py:103 | A size's mean is missing exactly when no row has that size. |
| Charts.SizeMeans | generate_charts.py:103 | Four entries in the order Short, Tall, Grande, Venti. Filtering before grouping gives the same as grouping the whole table. An entry is missing exactly when no row has that size. |
| Charts.SizeMeansIgnoreUnlisted | generate_charts.py:103 | A row of any other size never changes chart 3. |
| Charts.SelectedCaffeine | generate_charts.py:128 | One group's mean after the `Caffeine (mg) > 0` filter is positive and lies between the caffeine of two drinks of that category. |
| Charts.Caffeinated | generate_charts.py:128 | The rows kept for a category are exactly its rows with positive caffeine, each as often as it occurs in the table. |
| Charts.CaffeineOf | generate_charts.py:128 | A category's caffeine mean is positive and is the mean of its caffeinated readings. |
| Charts.SelectedIsCaffeineOf | generate_charts.py:128 | Filtering first and then grouping gives each category the mean of its own caffeinated rows. |
| Charts.CaffeineTable | generate_charts.py:128 | Exactly the categories with a caffeinated row, each once with its caffeine mean. |
| Charts.CaffeineByCategory | generate_charts.py:128 | Exactly the categories with a caffeinated row, each once with its caffeine mean, largest first. |
| Charts.MilkOf | generate_charts.py:154-155 | One milk's entry of `[['Calories','Total Fat (g)']].mean()`. Its calorie mean lies between the calories of two drinks of that milk. Its fat mean is missing exactly when none of that milk's drinks has a total-fat reading. |
| Charts.MilkSelected | generate_charts.py:155 | Dropping "No Milk" rows leaves every other milk's entry unchanged. Every group left is a real milk. |
| Charts.MilkImpact | generate_charts.py:155 | One entry per milk other than "No Milk", in milk-name order, each computed from all of that milk's rows. Every milk that occurs has an entry. |
| Charts.HighestCalorie | generate_charts.py:304 | The 15 highest-calorie drinks (all of them when fewer), most first. No drink left out has more calories than a drink kept. |
| Charts.HighestCalorieFirst | generate_charts.py:304 | The first bar of chart 10 has the most calories in the whole table. |
| Charts.Label | generate_charts.py:305 | The label starts with the beverage cut to 25 characters, then " (", then the preparation cut to 15, then ")". |
| Charts.LabelOfShortNames | generate_charts.py:305 | Names that fit are shown in full. |
| Charts.TopItems | generate_charts.py:304-305 | One labelled bar per drink of `HighestCalorie`, in the same order. |
| Charts.PopularCategories | generate_charts.py:355 | The min(5, #categories) categories with the most rows, each once, most rows first. No category left out has more rows than one kept. |
| Charts.ProgressionCell | generate_charts.py:356-357 | A chart 12 cell as the script computes it from the selected rows. It is missing exactly when no selected row has that size. It is 0 when the category has no drink of that size. Otherwise it lies between the calories of two of the category's drinks of that size. |
| Charts.CellAgrees | generate_charts.py:356-357 | Each chart 12 cell is the mean calories of the category at that size. Without such rows it is 0 when some selected row has that size (`fill_value=0`). It is missing when none has (the column comes from `reindex`). |
| Charts.SizeProgression | generate_charts.py:355-357 | One row per popular category that has a drink in a listed size, in name order. Each row has four cells, as `CellAgrees` describes. |
| Pipeline.Analyze | generate_charts.py:51-357 | Over any table, the counts of chart 6 add up to the number of rows. Chart 10 has min(15, rows) bars and chart 3 has four columns. The error bars are non-negative. The colours of charts 7 and 8 run green to red. |
| Pipeline.GenerateCharts | generate_charts.py:21-357 | The script runs exactly when the table has rows, every percentage column is read as text and every row loads. A table with no rows gets through loading but stops at line 304, because `nlargest` refuses a Calories column typed as text. Otherwise it stops with a column's `.str` error or some bad cell's error. On success the chart 6 counts add up to the number of menu rows, chart 10 has min(15, rows) bars, and chart 5 names only the four known milks. |
| Pipeline.LoadAndAnalyze | generate_charts.py:27-357 | Over a table with rows, the script runs exactly when the four percentage columns are read as text and every row loads. A failure is a column's `.str` error or some bad cell's error. On success the chart 6 counts add up to the number of rows, chart 10 has min(15, rows) bars, and chart 5 names only the four known milks. |
| Pipeline.MilkNamesRecognised | generate_charts.py:40 | Over rows whose milk labels were derived, chart 5 names only the four known milks. |

## Left out

- Drawing, styling, text annotations and `savefig` are not modelled. Each chart is modelled as the data it plots.
- Reading `starbucks.csv` and stripping column names (lines 21-24) are not modelled. A raw row is given as a `Menu.RawRow` value. In the percentage, caffeine and total-fat columns a field pandas reads as NaN (an empty field, or a marker such as "NA", "N/A", "NaN" or "null") is `Missing`.
- Menu.RawRow: the category and beverage names are assumed present. A blank one would be NaN in pandas, and `groupby` and `value_counts` would drop the row, so the chart 6 counts would no longer add up to the number of rows, and the line 305 label would be NaN. Calories, sodium, carbohydrates, sugars and protein are assumed complete numbers. An empty field there would be NaN in pandas. `mean`, `min`, `max` and `nlargest` would skip it, while line 247's `len(x)` would still count it. The model has no such rows.
- Menu.ReadAsText: how `read_csv` decides a column's type is modelled with `Numeric.ParseNumber`. A column whose fields are all numbers in forms that parser rejects (such as "1e5") counts as text here, and then fails on its first cell instead of at `.str`. A table with no rows is taken to give text columns, as `read_csv` types the columns of a header-only file. Its percentage columns then pass `.str`, and its Calories column stops the script at line 304 (see `Pipeline.GenerateCharts`).
- `explore_data.py` is not part of this model.
- Floating point is not modelled: means, shares and thresholds are exact reals. Values that differ only by rounding in the script are equal here.
- Chart 2's median (line 78) is not modelled, because it is an order statistic that no other chart uses. Its mean is modelled through `Charts.CategoryStats`. Charts 7, 9 and 11 use the same statistic rows. Charts 7 and 11 plot only the mean, and chart 9 plots the mean and the maximum (lines 284-285), so the other values are computed but not drawn.
- Charts.CategoryStats: the order among categories with equal means is not stated, because pandas' default sort is not stable. The same holds for `Charts.CategoryCounts`, `Charts.LowCalorieCoverage`, `Charts.CaffeineByCategory` and `Charts.PopularCategories`.
- Charts.HighestCalorie: `nlargest` keeps the earliest rows among ties at the cut (`keep='first'`). That rule is deliberately not modelled. The contract promises only the count, the order by calories, and that no row left out has more calories than a row kept.
- Numeric.ParseNumber: accepts only an optional sign, digits and at most one '.'. Exponents, surrounding whitespace, "inf", "nan" and digit separators, which Python's float conversion also accepts, are treated as malformed.
- Menu.DeriveSize: the preparation text is a string. A missing preparation, which the script turns into the text "nan", is not modelled.
- Stats.Mean: states that the mean lies between the minimum and the maximum, not the equation mean × count = sum.
- Charts.SizeMeanOf: states when a size's mean is missing, but not the value of the mean beyond its definition.
- Columns the charts never read (trans fat, saturated fat, cholesterol, fibre) are not carried in the rows.
- The total-fat coercion of line 154 is applied during loading. No chart before chart 5 reads that column, so the results are the same.
- The script's printed progress messages are not modelled.

=== FILE: charts.dfy ===
/** The twelve analyses of generate_charts.py (lines 51-357): for each chart, the
    numbers it plots, computed from the normalised menu table. Plotting, styling
    and file output are not modelled. */
module Charts {
  import opened Results
  import opened Text
  import opened Stats
  import opened Sorting
  import opened Menu
  import opened Grouping

  /** The numeric columns the per-category charts aggregate. */
  datatype Measure = Calories | Sugars | Sodium | Protein | Carbohydrates

  function MeasureOf(r: Row, m: Measure): real {
    match m
    case Calories => r.calories
    case Sugars => r.sugars
    case Sodium => r.sodium
    case Protein => r.protein
    case Carbohydrates => r.carbohydrates
  }

  /** One numeric column of some rows, in row order. */
  function Column(rows: seq<Row>, m: Measure): (xs: seq<real>)
    ensures |xs| == |rows|
    ensures forall i :: 0 <= i < |rows| ==> xs[i] == MeasureOf(rows[i], m)
  {
    seq(|rows|, i requires 0 <= i < |rows| => MeasureOf(rows[i], m))
  }

  /** The calorie mean of some rows lies between the calories of two of them. */
  lemma CaloriesBracketed(g: seq<Row>)
    requires |g| > 0
    ensures exists lo, hi :: lo in g && hi in g && lo.calories <= Mean(Column(g, Calories)) <= hi.calories
  {
    var xs := Column(g, Calories);
    var il :| 0 <= il < |xs| && xs[il] == Min(xs);
    var ih :| 0 <= ih < |xs| && xs[ih] == Max(xs);
    assert g[il] in g && g[ih] in g;
  }

  /** The categories that have rows: the index of `groupby('Beverage_category')`. */
  ghost predicate IsCategory(rows: seq<Row>, k: string) {
    HasKey(rows, ByCategory, k)
  }

  /** The rows of category `k`, in table order. */
  function Members(rows: seq<Row>, k: string): (g: seq<Row>)
    ensures forall r :: r in g <==> r in rows && r.category == k
    ensures forall r {:trigger multiset(g)[r]} :: multiset(g)[r] == if r.category == k then multiset(rows)[r] else 0
    ensures |g| > 0 <==> IsCategory(rows, k)
  {
    var g := Group(rows, ByCategory, k);
    assert IsCategory(rows, k) ==> |g| > 0 by {
      if IsCategory(rows, k) {
        var r :| r in rows && KeyOf(r, ByCategory) == k;
        assert r in g;
      }
    }
    assert |g| > 0 ==> g[0] in g;
    g
  }

  lemma KeysAreCategories(rows: seq<Row>)
    ensures forall k :: k in GroupKeys(rows, ByCategory) <==> IsCategory(rows, k)
    ensures forall k :: k in GroupKeys(rows, ByCategory) ==> |Members(rows, k)| > 0
  {
  }

  /** A table with one entry per group key, in key order: each category named once. */
  lemma KeyedTable<T>(rows: seq<Row>, u: seq<T>, name: T -> string)
    requires |u| == |GroupKeys(rows, ByCategory)|
    requires forall i :: 0 <= i < |u| ==> name(u[i]) == GroupKeys(rows, ByCategory)[i]
    ensures forall e :: e in u ==> IsCategory(rows, name(e))
    ensures forall k :: IsCategory(rows, k) ==> exists e :: e in u && name(e) == k
    ensures DistinctBy(u, name)
  {
    var ks := GroupKeys(rows, ByCategory);
    StrictlyIncreasingIsDistinct(ks);
    forall e | e in u ensures IsCategory(rows, name(e)) {
      var i :| 0 <= i < |u| && u[i] == e;
      assert ks[i] in ks;
    }
    forall k | IsCategory(rows, k) ensures exists e :: e in u && name(e) == k {
      var i :| 0 <= i < |ks| && ks[i] == k;
      assert u[i] in u;
    }
  }

  // ---------------------------------------------------------------------------
  // Charts 1, 2, 7, 9 and 11: one statistic row per category, by mean
  // ---------------------------------------------------------------------------

  /** `agg(['mean', 'min', 'max'])` of one column over one category. */
  datatype Stat = Stat(key: string, mean: real, min: real, max: real)

  function MeanOf(s: Stat): real {
    s.mean
  }

  function KeyOfStat(s: Stat): string {
    s.key
  }

  /** The statistics of category `k`: mean, minimum and maximum of its values. */
  function StatOf(rows: seq<Row>, m: Measure, k: string): (s: Stat)
    requires IsCategory(rows, k)
    ensures s.key == k
    ensures s.min <= s.mean <= s.max
  {
    var xs := Column(Members(rows, k), m);
    Stat(k, Mean(xs), Min(xs), Max(xs))
  }

  /** The mean is the average over exactly the category's rows, and the minimum and
      maximum are values that rows of the category attain and that bound all of them. */
  lemma StatOfRange(rows: seq<Row>, m: Measure, k: string)
    requires IsCategory(rows, k)
    ensures StatOf(rows, m, k).mean == Mean(Column(Members(rows, k), m))
    ensures forall r :: r in rows && r.category == k ==>
      StatOf(rows, m, k).min <= MeasureOf(r, m) <= StatOf(rows, m, k).max
    ensures exists r :: r in rows && r.category == k && MeasureOf(r, m) == StatOf(rows, m, k).min
    ensures exists r :: r in rows && r.category == k && MeasureOf(r, m) == StatOf(rows, m, k).max
  {
    ColumnRange(Members(rows, k), m);
  }

  /** The smallest and largest value of a column are taken by some row and bound every row. */
  lemma ColumnRange(g: seq<Row>, m: Measure)
    requires |g| > 0
    ensures forall r :: r in g ==> Min(Column(g, m)) <= MeasureOf(r, m) <= Max(Column(g, m))
    ensures exists r :: r in g && MeasureOf(r, m) == Min(Column(g, m))
    ensures exists r :: r in g && MeasureOf(r, m) == Max(Column(g, m))
  {
    var xs := Column(g, m);
    forall r | r in g ensures Min(xs) <= MeasureOf(r, m) <= Max(xs) {
      var i :| 0 <= i < |g| && g[i] == r;
      assert xs[i] == MeasureOf(r, m);
    }
    var il :| 0 <= il < |xs| && xs[il] == Min(xs);
    var ih :| 0 <= ih < |xs| && xs[ih] == Max(xs);
    assert g[il] in g && g[ih] in g;
  }

  /** The statistics of the categories `ks`, in order. */
  function StatRows(rows: seq<Row>, m: Measure, ks: seq<string>): (u: seq<Stat>)
    requires forall k :: k in ks ==> IsCategory(rows, k)
    ensures |u| == |ks|
    ensures forall i :: 0 <= i < |ks| ==> u[i] == StatOf(rows, m, ks[i])
  {
    if |ks| == 0 then [] else [StatOf(rows, m, ks[0])] + StatRows(rows, m, ks[1..])
  }

  /** The per-category table before sorting, in group-key order: each category once. */
  function StatTable(rows: seq<Row>, m: Measure): (u: seq<Stat>)
    ensures forall e :: e in u ==> IsCategory(rows, e.key) && e == StatOf(rows, m, e.key)
    ensures forall k :: IsCategory(rows, k) ==> exists e :: e in u && e.key == k
    ensures DistinctBy(u, KeyOfStat)
  {
    KeysAreCategories(rows);
    var u := StatRows(rows, m, GroupKeys(rows, ByCategory));
    KeyedTable(rows, u, KeyOfStat);
    u
  }

  /** Lines 51, 78, 217, 279 and 329: the grouped statistics of one column, one entry
      per category, sorted by mean with the largest first. */
  function CategoryStats(rows: seq<Row>, m: Measure): (r: seq<Stat>)
    ensures forall e :: e in r ==> IsCategory(rows, e.key) && e == StatOf(rows, m, e.key)
    ensures forall k :: IsCategory(rows, k) ==> exists e :: e in r && e.key == k
    ensures DistinctBy(r, KeyOfStat)
    ensures NonIncreasing(r, MeanOf)
  {
    var u := StatTable(rows, m);
    var r := SortDescending(u, MeanOf);
    Reordered(u, r, KeyOfStat);
    r
  }

  /** Lines 57-59: the error bars reach from the mean down to the minimum and up to the maximum. */
  function ErrorBars(stats: seq<Stat>): (bars: seq<(real, real)>)
    requires forall i :: 0 <= i < |stats| ==> stats[i].min <= stats[i].mean <= stats[i].max
    ensures |bars| == |stats|
    ensures forall i :: 0 <= i < |bars| ==> bars[i].0 >= 0.0 && bars[i].1 >= 0.0
    ensures forall i :: 0 <= i < |bars| ==>
      stats[i].mean - bars[i].0 == stats[i].min && stats[i].mean + bars[i].1 == stats[i].max
  {
    seq(|stats|, i requires 0 <= i < |stats| => (stats[i].mean - stats[i].min, stats[i].max - stats[i].mean))
  }

  // ---------------------------------------------------------------------------
  // Chart 6: rows per category, fewest first
  // ---------------------------------------------------------------------------

  /** `groupby(...).size()`: a category and its number of rows. */
  datatype Tally = Tally(key: string, count: nat)

  function CountOf(t: Tally): int {
    t.count
  }

  function CountKey(t: Tally): real {
    t.count as real
  }

  function KeyOfTally(t: Tally): string {
    t.key
  }

  /** One tally per listed key, in the order listed. */
  function TallyTable(rows: seq<Row>, ks: seq<string>): (u: seq<Tally>)
    ensures |u| == |ks|
    ensures forall i :: 0 <= i < |ks| ==> u[i] == Tally(ks[i], |Members(rows, ks[i])|)
  {
    if |ks| == 0 then [] else [Tally(ks[0], |Members(rows, ks[0])|)] + TallyTable(rows, ks[1..])
  }

  lemma {:induction false} TallyTableTotal(rows: seq<Row>, ks: seq<string>)
    ensures Total(TallyTable(rows, ks), CountOf) == GroupSizes(rows, ByCategory, ks)
  {
    if |ks| > 0 {
      TallyTableTotal(rows, ks[1..]);
      var u := TallyTable(rows, ks);
      assert u[1..] == TallyTable(rows, ks[1..]);
    }
  }

  /** The unsorted tallies, in group-key order: every category once, counts adding up
      to the table. */
  function Tallies(rows: seq<Row>): (u: seq<Tally>)
    ensures forall t :: t in u ==> IsCategory(rows, t.key) && t.count == |Members(rows, t.key)|
    ensures forall k :: IsCategory(rows, k) ==> Tally(k, |Members(rows, k)|) in u
    ensures DistinctBy(u, KeyOfTally)
    ensures Total(u, CountOf) == |rows|
    ensures |u| == |GroupKeys(rows, ByCategory)|
  {
    var ks := GroupKeys(rows, ByCategory);
    var u := TallyTable(rows, ks);
    KeysAreCategories(rows);
    KeyedTable(rows, u, KeyOfTally);
    TalliesTotal(rows);
    TalliesComplete(rows, ks, u);
    u
  }

  /** The tallies over the group keys add up to the number of rows. */
  lemma TalliesTotal(rows: seq<Row>)
    ensures Total(TallyTable(rows, GroupKeys(rows, ByCategory)), CountOf) == |rows|
  {
    var ks := GroupKeys(rows, ByCategory);
    StrictlyIncreasingIsDistinct(ks);
    TallyTableTotal(rows, ks);
    GroupSizesPartition(rows, ByCategory, ks);
  }

  /** Every category's tally is in a table built over all the group keys. */
  lemma TalliesComplete(rows: seq<Row>, ks: seq<string>, u: seq<Tally>)
    requires forall k :: IsCategory(rows, k) ==> k in ks
    requires |u| == |ks| && forall i :: 0 <= i < |ks| ==> u[i] == Tally(ks[i], |Members(rows, ks[i])|)
    ensures forall k :: IsCategory(rows, k) ==> Tally(k, |Members(rows, k)|) in u
  {
    forall k | IsCategory(rows, k) ensures Tally(k, |Members(rows, k)|) in u {
      var i :| 0 <= i < |ks| && ks[i] == k;
      assert u[i] == Tally(k, |Members(rows, k)|);
    }
  }

  /** Line 193: the tallies sorted by count, fewest first. Every count is positive, the
      counts add up to the number of rows, and each category appears once. */
  function CategoryCounts(rows: seq<Row>): (r: seq<Tally>)
    ensures forall t :: t in r ==> IsCategory(rows, t.key) && t.count == |Members(rows, t.key)| && t.count >= 1
    ensures forall k :: IsCategory(rows, k) ==> Tally(k, |Members(rows, k)|) in r
    ensures DistinctBy(r, KeyOfTally)
    ensures NonDecreasing(r, CountKey)
    ensures Total(r, CountOf) == |rows|
  {
    var u := Tallies(rows);
    var r := SortAscending(u, CountKey);
    Reordered(u, r, KeyOfTally);
    TotalSortAscending(u, CountKey, CountOf);
    r
  }

  // ---------------------------------------------------------------------------
  // Chart 8: share of low-calorie rows per category
  // ---------------------------------------------------------------------------

  /** Line 245: a row counts as low-calorie below this many calories. */
  const LowCalorieThreshold: real := 150.0

  /** A category name with one number. */
  datatype Entry = Entry(key: string, value: real)

  function ValueOf(e: Entry): real {
    e.value
  }

  function KeyOfEntry(e: Entry): string {
    e.key
  }

  /** The positions of the low-calorie rows. */
  ghost function LowCaloriePositions(g: seq<Row>): set<int> {
    set i | 0 <= i < |g| && g[i].calories < LowCalorieThreshold
  }

  /** The percentage of category `k`'s rows below the threshold: 100 times the number
      of low-calorie rows over the number of rows, so 100 exactly when all are and 0
      exactly when none is. */
  function CoverageOf(rows: seq<Row>, k: string): (e: Entry)
    requires IsCategory(rows, k)
    ensures e.key == k
    ensures e.value == |LowCaloriePositions(Members(rows, k))| as real / |Members(rows, k)| as real * 100.0
    ensures 0.0 <= e.value <= 100.0
    ensures e.value == 100.0 <==> forall r :: r in rows && r.category == k ==> r.calories < LowCalorieThreshold
    ensures e.value == 0.0 <==> forall r :: r in rows && r.category == k ==> r.calories >= LowCalorieThreshold
  {
    var g := Members(rows, k);
    LowCalorieColumn(g);
    Entry(k, PercentBelow(Column(g, Calories), LowCalorieThreshold))
  }

  /** The calorie column of some rows, read against the threshold: the same positions
      lie below it, and "every value" and "no value" below it mean the same of the rows. */
  lemma LowCalorieColumn(g: seq<Row>)
    ensures BelowPositions(Column(g, Calories), LowCalorieThreshold) == LowCaloriePositions(g)
    ensures (forall i :: 0 <= i < |g| ==> Column(g, Calories)[i] < LowCalorieThreshold)
       <==> (forall r :: r in g ==> r.calories < LowCalorieThreshold)
    ensures (forall i :: 0 <= i < |g| ==> Column(g, Calories)[i] >= LowCalorieThreshold)
       <==> (forall r :: r in g ==> r.calories >= LowCalorieThreshold)
  {
    var xs := Column(g, Calories);
    if forall i :: 0 <= i < |xs| ==> xs[i] < LowCalorieThreshold {
      forall r | r in g ensures r.calories < LowCalorieThreshold {
        var i :| 0 <= i < |g| && g[i] == r;
        assert xs[i] == r.calories;
      }
    }
    if forall i :: 0 <= i < |xs| ==> xs[i] >= LowCalorieThreshold {
      forall r | r in g ensures r.calories >= LowCalorieThreshold {
        var i :| 0 <= i < |g| && g[i] == r;
        assert xs[i] == r.calories;
      }
    }
  }

  /** The low-calorie shares of the categories `ks`, in order. */
  function CoverageRows(rows: seq<Row>, ks: seq<string>): (u: seq<Entry>)
    requires forall k :: k in ks ==> IsCategory(rows, k)
    ensures |u| == |ks|
    ensures forall i :: 0 <= i < |ks| ==> u[i] == CoverageOf(rows, ks[i])
  {
    if |ks| == 0 then [] else [CoverageOf(rows, ks[0])] + CoverageRows(rows, ks[1..])
  }

  /** The unsorted shares, in group-key order: each category once. */
  function CoverageTable(rows: seq<Row>): (u: seq<Entry>)
    ensures forall e :: e in u ==> IsCategory(rows, e.key) && e == CoverageOf(rows, e.key)
    ensures forall k :: IsCategory(rows, k) ==> exists e :: e in u && e.key == k
    ensures DistinctBy(u, KeyOfEntry)
  {
    KeysAreCategories(rows);
    var u := CoverageRows(rows, GroupKeys(rows, ByCategory));
    KeyedTable(rows, u, KeyOfEntry);
    u
  }

  /** Lines 246-248: the low-calorie share of every category, largest first. */
  function LowCalorieCoverage(rows: seq<Row>): (r: seq<Entry>)
    ensures forall e :: e in r ==> IsCategory(rows, e.key) && e == CoverageOf(rows, e.key)
    ensures forall k :: IsCategory(rows, k) ==> exists e :: e in r && e.key == k
    ensures DistinctBy(r, KeyOfEntry)
    ensures NonIncreasing(r, ValueOf)
  {
    var u := CoverageTable(rows);
    var r := SortDescending(u, ValueOf);
    Reordered(u, r, KeyOfEntry);
    r
  }

  // ---------------------------------------------------------------------------
  // Colour bands of charts 7 and 8
  // ---------------------------------------------------------------------------

  datatype Colour = Red | Yellow | Green

  /** Red below yellow below green. */
  function Rank(c: Colour): nat {
    match c
    case Red => 0
    case Yellow => 1
    case Green => 2
  }

  /** Line 222: protein below 5 g is red, below 10 g yellow, otherwise green. */
  function ProteinColour(x: real): (c: Colour)
    ensures c == Red <==> x < 5.0
    ensures c == Yellow <==> 5.0 <= x < 10.0
    ensures c == Green <==> 10.0 <= x
  {
    if x < 5.0 then Red else if x < 10.0 then Yellow else Green
  }

  /** Lines 253-259: a share of at least 50% is green, at least 25% yellow, else red. */
  function CoverageColour(p: real): (c: Colour)
    ensures c == Green <==> 50.0 <= p
    ensures c == Yellow <==> 25.0 <= p < 50.0
    ensures c == Red <==> p < 25.0
  {
    if p >= 50.0 then Green else if p >= 25.0 then Yellow else Red
  }

  lemma ProteinColourMonotone(x: real, y: real)
    requires x <= y
    ensures Rank(ProteinColour(x)) <= Rank(ProteinColour(y))
  {
  }

  lemma CoverageColourMonotone(p: real, q: real)
    requires p <= q
    ensures Rank(CoverageColour(p)) <= Rank(CoverageColour(q))
  {
  }

  /** Chart 7's bar colours, one per statistic row. Over rows sorted by mean, as
      chart 7 plots them, greens come first, then yellows, then reds. */
  function ProteinColours(stats: seq<Stat>): (cs: seq<Colour>)
    ensures |cs| == |stats|
    ensures forall i :: 0 <= i < |cs| ==> cs[i] == ProteinColour(stats[i].mean)
    ensures NonIncreasing(stats, MeanOf) ==> forall i, j :: 0 <= i < j < |cs| ==> Rank(cs[i]) >= Rank(cs[j])
  {
    ProteinColoursOrdered(stats);
    seq(|stats|, i requires 0 <= i < |stats| => ProteinColour(stats[i].mean))
  }

  /** Chart 8's bar colours, likewise ordered green, yellow, red over sorted shares. */
  function CoverageColours(es: seq<Entry>): (cs: seq<Colour>)
    ensures |cs| == |es|
    ensures forall i :: 0 <= i < |cs| ==> cs[i] == CoverageColour(es[i].value)
    ensures NonIncreasing(es, ValueOf) ==> forall i, j :: 0 <= i < j < |cs| ==> Rank(cs[i]) >= Rank(cs[j])
  {
    CoverageColoursOrdered(es);
    seq(|es|, i requires 0 <= i < |es| => CoverageColour(es[i].value))
  }

  lemma ProteinColoursOrdered(stats: seq<Stat>)
    ensures NonIncreasing(stats, MeanOf) ==>
      forall i, j :: 0 <= i < j < |stats| ==> Rank(ProteinColour(stats[i].mean)) >= Rank(ProteinColour(stats[j].mean))
  {
    if NonIncreasing(stats, MeanOf) {
      forall i, j | 0 <= i < j < |stats|
        ensures Rank(ProteinColour(stats[i].mean)) >= Rank(ProteinColour(stats[j].mean))
      {
        assert MeanOf(stats[i]) >= MeanOf(stats[j]);
        ProteinColourMonotone(stats[j].mean, stats[i].mean);
      }
    }
  }

  lemma CoverageColoursOrdered(es: seq<Entry>)
    ensures NonIncreasing(es, ValueOf) ==>
      forall i, j :: 0 <= i < j < |es| ==> Rank(CoverageColour(es[i].value)) >= Rank(CoverageColour(es[j].value))
  {
    if NonIncreasing(es, ValueOf) {
      forall i, j | 0 <= i < j < |es|
        ensures Rank(CoverageColour(es[i].value)) >= Rank(CoverageColour(es[j].value))
      {
        assert ValueOf(es[i]) >= ValueOf(es[j]);
        CoverageColourMonotone(es[j].value, es[i].value);
      }
    }
  }

  // ---------------------------------------------------------------------------
  // Chart 3: mean calories per listed size
  // ---------------------------------------------------------------------------

  /** A size column of chart 3: the mean, or `None` (NaN) when no row has the size. */
  datatype SizeMean = SizeMean(size: string, mean: Option<real>)

  predicate HasListedSize(r: Row) {
    r.size in SizeOrder
  }

  /** Keeping only the listed sizes leaves the group of each listed size unchanged. */
  lemma ListedSizeGroups(rows: seq<Row>)
    ensures forall s :: s in SizeOrder ==> Group(Where(rows, HasListedSize), BySize, s) == Group(rows, BySize, s)
  {
    forall s | s in SizeOrder
      ensures Group(Where(rows, HasListedSize), BySize, s) == Group(rows, BySize, s)
    {
      GroupWhereKept(rows, HasListedSize, BySize, s);
    }
  }

  /** The mean calories of the rows of size `s`, missing when there are none. */
  function SizeMeanOf(rows: seq<Row>, s: string): (e: SizeMean)
    ensures e.size == s
    ensures e.mean.None? <==> forall x :: x in rows ==> x.size != s
  {
    var g := Group(rows, BySize, s);
    assert |g| > 0 ==> g[0] in g;
    SizeMean(s, if |g| > 0 then Some(Mean(Column(g, Calories))) else None)
  }

  /** Line 103: the mean calories of each size in the fixed order Short, Tall, Grande,
      Venti, missing for a size no row has. The script keeps only rows of the four
      sizes before grouping; the result is the same as grouping the whole table. */
  function SizeMeans(rows: seq<Row>): (r: seq<SizeMean>)
    ensures |r| == |SizeOrder|
    ensures forall i :: 0 <= i < |r| ==> r[i] == SizeMeanOf(rows, SizeOrder[i])
    ensures forall i :: 0 <= i < |r| ==> (r[i].mean.None? <==> forall x :: x in rows ==> x.size != SizeOrder[i])
  {
    var listed := Where(rows, HasListedSize);
    ListedSizeGroups(rows);
    seq(|SizeOrder|, i requires 0 <= i < |SizeOrder| => SizeMeanOf(listed, SizeOrder[i]))
  }

  /** Rows of a size outside the four listed ones never change chart 3. */
  lemma SizeMeansIgnoreUnlisted(rows: seq<Row>, x: Row)
    requires !HasListedSize(x)
    ensures SizeMeans(rows + [x]) == SizeMeans(rows)
  {
    var a, b := SizeMeans(rows + [x]), SizeMeans(rows);
    forall i | 0 <= i < |SizeOrder| ensures a[i] == b[i] {
      SizeMeanOfAppend(rows, x, SizeOrder[i]);
    }
    assert a == b;
  }

  lemma SizeMeanOfAppend(rows: seq<Row>, x: Row, s: string)
    requires x.size != s
    ensures SizeMeanOf(rows + [x], s) == SizeMeanOf(rows, s)
  {
    GroupAppendOther(rows, x, BySize, s);
  }

  // ---------------------------------------------------------------------------
  // Chart 4: mean caffeine per category, over caffeinated rows
  // ---------------------------------------------------------------------------

  /** Line 128's mask: caffeine present and positive. */
  predicate HasCaffeine(r: Row) {
    r.caffeine.Some? && r.caffeine.value > 0.0
  }

  /** The caffeine readings of rows that all have one. */
  function CaffeineLevels(rows: seq<Row>): (xs: seq<real>)
    requires forall i :: 0 <= i < |rows| ==> rows[i].caffeine.Some?
    ensures |xs| == |rows|
    ensures forall i :: 0 <= i < |rows| ==> xs[i] == rows[i].caffeine.value
  {
    seq(|rows|, i requires 0 <= i < |rows| => rows[i].caffeine.value)
  }

  /** The caffeinated rows of category `k`. */
  function Caffeinated(rows: seq<Row>, k: string): (g: seq<Row>)
    ensures forall r :: r in g <==> r in rows && r.category == k && HasCaffeine(r)
    ensures forall r {:trigger multiset(g)[r]} ::
      multiset(g)[r] == if r.category == k && HasCaffeine(r) then multiset(rows)[r] else 0
    ensures forall i :: 0 <= i < |g| ==> HasCaffeine(g[i])
  {
    var g := Where(Members(rows, k), HasCaffeine);
    assert forall i :: 0 <= i < |g| ==> g[i] in g;
    g
  }

  /** The mean caffeine of category `k`'s caffeinated rows; positive, like every reading. */
  function CaffeineOf(rows: seq<Row>, k: string): (e: Entry)
    requires |Caffeinated(rows, k)| > 0
    ensures e.key == k
    ensures e.value > 0.0
    ensures e.value == Mean(CaffeineLevels(Caffeinated(rows, k)))
  {
    var xs := CaffeineLevels(Caffeinated(rows, k));
    MeanPositive(xs);
    Entry(k, Mean(xs))
  }

  /** The mean caffeine of group `k` of an all-caffeinated selection. */
  function SelectedCaffeine(sel: seq<Row>, k: string): (e: Entry)
    requires forall r :: r in sel ==> HasCaffeine(r)
    requires |Group(sel, ByCategory, k)| > 0
    ensures e.key == k
    ensures e.value > 0.0
    ensures exists lo, hi :: (lo in sel && hi in sel && lo.category == k && hi.category == k &&
                              lo.caffeine.Some? && hi.caffeine.Some? &&
                              lo.caffeine.value <= e.value <= hi.caffeine.value)
  {
    var g := Group(sel, ByCategory, k);
    assert forall i :: 0 <= i < |g| ==> HasCaffeine(g[i]) by {
      forall i | 0 <= i < |g| ensures HasCaffeine(g[i]) {
        assert g[i] in g;
        assert g[i] in sel;
      }
    }
    var xs := CaffeineLevels(g);
    MeanPositive(xs);
    var il :| 0 <= il < |xs| && xs[il] == Min(xs);
    var ih :| 0 <= ih < |xs| && xs[ih] == Max(xs);
    assert g[il] in g && g[ih] in g;
    Entry(k, Mean(xs))
  }

  /** The caffeine entries of the groups `ks` of an all-caffeinated selection, in order. */
  function SelectedTable(sel: seq<Row>, ks: seq<string>): (u: seq<Entry>)
    requires forall r :: r in sel ==> HasCaffeine(r)
    requires forall k :: k in ks ==> |Group(sel, ByCategory, k)| > 0
    ensures |u| == |ks|
    ensures forall i :: 0 <= i < |ks| ==> u[i] == SelectedCaffeine(sel, ks[i])
  {
    seq(|ks|, i requires 0 <= i < |ks| => SelectedCaffeine(sel, ks[i]))
  }

  /** The unsorted caffeine table: filter first, then group, as the script does. */
  function CaffeineTable(rows: seq<Row>): (u: seq<Entry>)
    ensures forall e :: e in u ==> |Caffeinated(rows, e.key)| > 0 && e == CaffeineOf(rows, e.key)
    ensures forall k :: |Caffeinated(rows, k)| > 0 ==> exists e :: e in u && e.key == k
    ensures DistinctBy(u, KeyOfEntry)
  {
    var sel := Where(rows, HasCaffeine);
    var ks := GroupKeys(sel, ByCategory);
    GroupKeysNonEmpty(sel, ByCategory);
    var u := SelectedTable(sel, ks);
    CaffeineEntries(rows, u);
    KeyedTable(sel, u, KeyOfEntry);
    CaffeineComplete(rows, u);
    u
  }

  /** Group `k` of the caffeinated selection is category `k`'s caffeinated rows, so its
      entry is `CaffeineOf(rows, k)`. */
  lemma SelectedIsCaffeineOf(rows: seq<Row>, k: string)
    requires |Group(Where(rows, HasCaffeine), ByCategory, k)| > 0
    ensures |Caffeinated(rows, k)| > 0
    ensures SelectedCaffeine(Where(rows, HasCaffeine), k) == CaffeineOf(rows, k)
  {
    GroupWhere(rows, HasCaffeine, ByCategory, k);
    assert Group(Where(rows, HasCaffeine), ByCategory, k) == Caffeinated(rows, k);
  }

  lemma CaffeineEntries(rows: seq<Row>, u: seq<Entry>)
    requires |u| == |GroupKeys(Where(rows, HasCaffeine), ByCategory)|
    requires forall i :: 0 <= i < |u| ==>
      var k := GroupKeys(Where(rows, HasCaffeine), ByCategory)[i];
      |Group(Where(rows, HasCaffeine), ByCategory, k)| > 0 && u[i] == SelectedCaffeine(Where(rows, HasCaffeine), k)
    ensures forall e :: e in u ==> |Caffeinated(rows, e.key)| > 0 && e == CaffeineOf(rows, e.key)
  {
    forall e | e in u ensures |Caffeinated(rows, e.key)| > 0 && e == CaffeineOf(rows, e.key) {
      var i :| 0 <= i < |u| && u[i] == e;
      SelectedIsCaffeineOf(rows, GroupKeys(Where(rows, HasCaffeine), ByCategory)[i]);
    }
  }

  /** A category with a caffeinated row is a group of the caffeinated selection. */
  lemma CaffeineComplete(rows: seq<Row>, u: seq<Entry>)
    requires forall k :: IsCategory(Where(rows, HasCaffeine), k) ==> exists e :: e in u && e.key == k
    ensures forall k :: |Caffeinated(rows, k)| > 0 ==> exists e :: e in u && e.key == k
  {
    forall k | |Caffeinated(rows, k)| > 0 ensures exists e :: e in u && e.key == k {
      var x := Caffeinated(rows, k)[0];
      assert x in Caffeinated(rows, k);
      assert IsCategory(Where(rows, HasCaffeine), k) by {
        assert x in Where(rows, HasCaffeine) && KeyOf(x, ByCategory) == k;
      }
    }
  }

  /** Line 128: the mean positive caffeine of each category that has a caffeinated row,
      largest first. Categories with no such row are absent. */
  function CaffeineByCategory(rows: seq<Row>): (r: seq<Entry>)
    ensures forall e :: e in r ==> |Caffeinated(rows, e.key)| > 0 && e == CaffeineOf(rows, e.key)
    ensures forall k :: |Caffeinated(rows, k)| > 0 ==> exists e :: e in r && e.key == k
    ensures DistinctBy(r, KeyOfEntry)
    ensures NonIncreasing(r, ValueOf)
  {
    var u := CaffeineTable(rows);
    var r := SortDescending(u, ValueOf);
    Reordered(u, r, KeyOfEntry);
    r
  }

  // ---------------------------------------------------------------------------
  // Chart 5: mean calories and total fat per milk type
  // ---------------------------------------------------------------------------

  /** A milk column of chart 5. The fat mean is missing (NaN) when no row of the milk
      type has a total-fat reading. */
  datatype MilkEntry = MilkEntry(milk: string, calories: real, fat: Option<real>)

  /** Line 155's mask: a milk was recognised. */
  predicate HasMilk(r: Row) {
    r.milkType != NoMilk
  }

  /** The total-fat readings of some rows, in row order. */
  function FatReadings(rows: seq<Row>): (cells: seq<Option<real>>)
    ensures |cells| == |rows|
    ensures forall i :: 0 <= i < |rows| ==> cells[i] == rows[i].totalFat
  {
    seq(|rows|, i requires 0 <= i < |rows| => rows[i].totalFat)
  }

  /** Both means over the rows of milk type `m`; the fat mean skips missing readings.
      The calorie mean lies between the calories of the lightest and the heaviest
      drink with milk `m`, and the fat mean is missing exactly when none of them has
      a total-fat reading. */
  function MilkOf(rows: seq<Row>, m: string): (e: MilkEntry)
    requires |Group(rows, ByMilkType, m)| > 0
    ensures e.milk == m
    ensures exists lo, hi :: (lo in rows && hi in rows && lo.milkType == m && hi.milkType == m &&
                              lo.calories <= e.calories <= hi.calories)
    ensures e.fat.None? <==> forall x :: x in rows && x.milkType == m ==> x.totalFat.None?
  {
    var g := Group(rows, ByMilkType, m);
    CaloriesBracketed(g);
    NoFatReadings(g);
    MilkEntry(m, MilkCalories(rows, m), MilkFat(rows, m))
  }

  function MilkCalories(rows: seq<Row>, m: string): real
    requires |Group(rows, ByMilkType, m)| > 0
  {
    Mean(Column(Group(rows, ByMilkType, m), Calories))
  }

  function MilkFat(rows: seq<Row>, m: string): Option<real> {
    MeanSkipMissing(FatReadings(Group(rows, ByMilkType, m)))
  }

  /** The mean fat of some rows is missing exactly when none of them has a reading. */
  lemma NoFatReadings(g: seq<Row>)
    ensures MeanSkipMissing(FatReadings(g)).None? <==> forall x :: x in g ==> x.totalFat.None?
  {
    var cells := FatReadings(g);
    AllMissing(cells);
    if forall i :: 0 <= i < |cells| ==> cells[i].None? {
      forall x | x in g ensures x.totalFat.None? {
        var i :| 0 <= i < |g| && g[i] == x;
        assert cells[i] == x.totalFat;
      }
    }
  }

  /** Dropping "No Milk" rows leaves every other milk type's group unchanged, and
      every group of the selection is such a milk type. */
  lemma MilkSelected(rows: seq<Row>, m: string)
    requires |Group(Where(rows, HasMilk), ByMilkType, m)| > 0
    ensures m != NoMilk && |Group(rows, ByMilkType, m)| > 0
    ensures MilkOf(Where(rows, HasMilk), m) == MilkOf(rows, m)
  {
    var x := GroupWitness(Where(rows, HasMilk), ByMilkType, m);
    assert x in Group(rows, ByMilkType, m);
    GroupWhereKept(rows, HasMilk, ByMilkType, m);
  }

  /** The milk entries of the groups `ks` of a selection, in order. */
  function MilkRows(sel: seq<Row>, ks: seq<string>): (u: seq<MilkEntry>)
    requires forall k :: k in ks ==> |Group(sel, ByMilkType, k)| > 0
    ensures |u| == |ks|
    ensures forall i :: 0 <= i < |ks| ==> u[i] == MilkOf(sel, ks[i])
  {
    if |ks| == 0 then [] else [MilkOf(sel, ks[0])] + MilkRows(sel, ks[1..])
  }

  /** Line 155: one entry per milk type other than "No Milk", in the string order of
      the milk names (the order `groupby` lists them). */
  function MilkImpact(rows: seq<Row>): (r: seq<MilkEntry>)
    ensures forall i, j :: 0 <= i < j < |r| ==> LexLess(r[i].milk, r[j].milk)
    ensures forall i :: 0 <= i < |r| ==>
      r[i].milk != NoMilk && |Group(rows, ByMilkType, r[i].milk)| > 0 && r[i] == MilkOf(rows, r[i].milk)
    ensures forall x :: x in rows && HasMilk(x) ==> exists i :: 0 <= i < |r| && r[i].milk == x.milkType
  {
    var sel := Where(rows, HasMilk);
    GroupKeysNonEmpty(sel, ByMilkType);
    var r := MilkRows(sel, GroupKeys(sel, ByMilkType));
    MilkEntries(rows, r);
    MilkComplete(rows, r);
    r
  }

  lemma MilkEntries(rows: seq<Row>, r: seq<MilkEntry>)
    requires |r| == |GroupKeys(Where(rows, HasMilk), ByMilkType)|
    requires forall i :: 0 <= i < |r| ==>
      var k := GroupKeys(Where(rows, HasMilk), ByMilkType)[i];
      |Group(Where(rows, HasMilk), ByMilkType, k)| > 0 && r[i] == MilkOf(Where(rows, HasMilk), k)
    ensures forall i, j :: 0 <= i < j < |r| ==> LexLess(r[i].milk, r[j].milk)
    ensures forall i :: 0 <= i < |r| ==>
      r[i].milk != NoMilk && |Group(rows, ByMilkType, r[i].milk)| > 0 && r[i] == MilkOf(rows, r[i].milk)
  {
    var ks := GroupKeys(Where(rows, HasMilk), ByMilkType);
    forall i | 0 <= i < |r|
      ensures r[i].milk != NoMilk && |Group(rows, ByMilkType, r[i].milk)| > 0 && r[i] == MilkOf(rows, r[i].milk)
    {
      MilkSelected(rows, ks[i]);
    }
    forall i, j | 0 <= i < j < |r| ensures LexLess(r[i].milk, r[j].milk) {
      assert r[i].milk == ks[i] && r[j].milk == ks[j];
    }
  }

  /** Every milk a row has, other than "No Milk", gets an entry. */
  lemma MilkComplete(rows: seq<Row>, r: seq<MilkEntry>)
    requires |r| == |GroupKeys(Where(rows, HasMilk), ByMilkType)|
    requires forall i :: 0 <= i < |r| ==> r[i].milk == GroupKeys(Where(rows, HasMilk), ByMilkType)[i]
    ensures forall x :: x in rows && HasMilk(x) ==> exists i :: 0 <= i < |r| && r[i].milk == x.milkType
  {
    var sel := Where(rows, HasMilk);
    var ks := GroupKeys(sel, ByMilkType);
    forall x | x in rows && HasMilk(x) ensures exists i :: 0 <= i < |r| && r[i].milk == x.milkType {
      assert x in sel;
      assert HasKey(sel, ByMilkType, x.milkType);
      var i :| 0 <= i < |ks| && ks[i] == x.milkType;
      assert r[i].milk == ks[i];
    }
  }

  // ---------------------------------------------------------------------------
  // Chart 10: the fifteen highest-calorie rows and their labels
  // ---------------------------------------------------------------------------

  const TopCount: nat := 15
  const BeverageWidth: nat := 25
  const PrepWidth: nat := 15

  function CaloriesOf(r: Row): real {
    r.calories
  }

  /** Line 304, `nlargest(15, 'Calories')`: the fifteen rows with the most calories (all
      rows when there are fewer), most first; no row left out has more calories than
      any row kept. */
  function HighestCalorie(rows: seq<Row>): (top: seq<Row>)
    ensures |top| == if |rows| < TopCount then |rows| else TopCount
    ensures NonIncreasing(top, CaloriesOf)
    ensures multiset(top) <= multiset(rows)
    ensures forall a, b :: a in multiset(rows) - multiset(top) && b in top ==> a.calories <= b.calories
  {
    var top := Largest(rows, TopCount, CaloriesOf);
    assert forall a, b :: a in multiset(rows) - multiset(top) && b in top ==> CaloriesOf(a) <= CaloriesOf(b);
    top
  }

  /** The first bar of chart 10 is a row with the most calories in the whole table. */
  lemma HighestCalorieFirst(rows: seq<Row>)
    requires |rows| > 0
    ensures |HighestCalorie(rows)| > 0
    ensures forall x :: x in rows ==> x.calories <= HighestCalorie(rows)[0].calories
  {
    var top := HighestCalorie(rows);
    forall x | x in rows ensures x.calories <= top[0].calories {
      assert top[0] in top;
      if x in top {
        var j :| 0 <= j < |top| && top[j] == x;
        assert CaloriesOf(top[0]) >= CaloriesOf(top[j]) || j == 0;
      } else {
        assert x in multiset(rows) - multiset(top);
      }
    }
  }

  /** Line 305: the first 25 characters of the beverage, then " (", the first 15
      characters of the preparation, and ")". */
  function Label(r: Row): (s: string)
    ensures IsPrefix(Truncate(r.beverage, BeverageWidth), s)
    ensures |s| == |Truncate(r.beverage, BeverageWidth)| + |Truncate(r.prep, PrepWidth)| + 3
    ensures s[|Truncate(r.beverage, BeverageWidth)|..|Truncate(r.beverage, BeverageWidth)| + 2] == " ("
    ensures s[|Truncate(r.beverage, BeverageWidth)| + 2..|s| - 1] == Truncate(r.prep, PrepWidth)
    ensures s[|s| - 1] == ')'
    ensures |s| <= BeverageWidth + PrepWidth + 3
  {
    var b, p := Truncate(r.beverage, BeverageWidth), Truncate(r.prep, PrepWidth);
    var s := b + " (" + p + ")";
    assert s[..|b|] == b;
    assert s[|b|..|b| + 2] == " (";
    assert s[|b| + 2..|s| - 1] == p;
    s
  }

  /** Names that fit are shown in full. */
  lemma LabelOfShortNames(r: Row)
    requires |r.beverage| <= BeverageWidth && |r.prep| <= PrepWidth
    ensures Label(r) == r.beverage + " (" + r.prep + ")"
  {
  }

  /** The label and calories of one bar of chart 10. */
  datatype TopItem = TopItem(caption: string, calories: real)

  function TopItems(rows: seq<Row>): (items: seq<TopItem>)
    ensures |items| == |HighestCalorie(rows)|
    ensures forall i :: 0 <= i < |items| ==>
      items[i] == TopItem(Label(HighestCalorie(rows)[i]), HighestCalorie(rows)[i].calories)
  {
    var top := HighestCalorie(rows);
    seq(|top|, i requires 0 <= i < |top| => TopItem(Label(top[i]), top[i].calories))
  }

  // ---------------------------------------------------------------------------
  // Chart 12: mean calories by category and size for the five largest categories
  // ---------------------------------------------------------------------------

  const PopularCount: nat := 5

  /** Line 355, `value_counts().head(5)`: the five categories with the most rows (all
      categories when there are fewer), most rows first. A category left out has no
      more rows than any category kept. */
  function PopularCategories(rows: seq<Row>): (ps: seq<string>)
    ensures |ps| == if |GroupKeys(rows, ByCategory)| < PopularCount then |GroupKeys(rows, ByCategory)| else PopularCount
    ensures forall p :: p in ps ==> IsCategory(rows, p)
    ensures Distinct(ps)
    ensures forall i, j :: 0 <= i < j < |ps| ==> |Members(rows, ps[i])| >= |Members(rows, ps[j])|
    ensures forall c, p :: IsCategory(rows, c) && c !in ps && p in ps ==> |Members(rows, c)| <= |Members(rows, p)|
  {
    var u := Tallies(rows);
    var top := Largest(u, PopularCount, CountKey);
    var ps := seq(|top|, i requires 0 <= i < |top| => top[i].key);
    PopularFacts(rows, u, top, ps);
    ps
  }

  lemma PopularFacts(rows: seq<Row>, u: seq<Tally>, top: seq<Tally>, ps: seq<string>)
    requires u == Tallies(rows)
    requires top == Largest(u, PopularCount, CountKey)
    requires |ps| == |top| && forall i :: 0 <= i < |top| ==> ps[i] == top[i].key
    ensures |ps| == if |GroupKeys(rows, ByCategory)| < PopularCount then |GroupKeys(rows, ByCategory)| else PopularCount
    ensures forall p :: p in ps ==> IsCategory(rows, p)
    ensures Distinct(ps)
    ensures forall i, j :: 0 <= i < j < |ps| ==> |Members(rows, ps[i])| >= |Members(rows, ps[j])|
    ensures forall c, p :: IsCategory(rows, c) && c !in ps && p in ps ==> |Members(rows, c)| <= |Members(rows, p)|
  {
    PopularKept(rows, u, top, ps);
    PopularOrdered(rows, top, ps);
    PopularDominates(rows, u, top, ps);
  }

  /** The kept tallies are tallies of the table, with distinct names. */
  lemma PopularKept(rows: seq<Row>, u: seq<Tally>, top: seq<Tally>, ps: seq<string>)
    requires forall t :: t in u ==> IsCategory(rows, t.key) && t.count == |Members(rows, t.key)|
    requires DistinctBy(u, KeyOfTally)
    requires multiset(top) <= multiset(u)
    requires |ps| == |top| && forall i :: 0 <= i < |top| ==> ps[i] == top[i].key
    ensures forall t :: t in top ==> t.count == |Members(rows, t.key)|
    ensures forall p :: p in ps ==> IsCategory(rows, p)
    ensures Distinct(ps)
  {
    assert forall t :: t in top ==> t in u by {
      forall t | t in top ensures t in u {
        assert t in multiset(top);
      }
    }
    DistinctBySubset(u, top, KeyOfTally);
    forall p | p in ps ensures IsCategory(rows, p) {
      var i :| 0 <= i < |ps| && ps[i] == p;
      assert top[i] in top;
    }
  }

  lemma PopularOrdered(rows: seq<Row>, top: seq<Tally>, ps: seq<string>)
    requires forall t :: t in top ==> t.count == |Members(rows, t.key)|
    requires NonIncreasing(top, CountKey)
    requires |ps| == |top| && forall i :: 0 <= i < |top| ==> ps[i] == top[i].key
    ensures forall i, j :: 0 <= i < j < |ps| ==> |Members(rows, ps[i])| >= |Members(rows, ps[j])|
  {
    forall i, j | 0 <= i < j < |ps| ensures |Members(rows, ps[i])| >= |Members(rows, ps[j])| {
      assert top[i] in top && top[j] in top;
      assert CountKey(top[i]) >= CountKey(top[j]);
    }
  }

  lemma PopularDominates(rows: seq<Row>, u: seq<Tally>, top: seq<Tally>, ps: seq<string>)
    requires forall k :: IsCategory(rows, k) ==> Tally(k, |Members(rows, k)|) in u
    requires forall t :: t in top ==> t.count == |Members(rows, t.key)|
    requires forall a, b :: a in multiset(u) - multiset(top) && b in top ==> CountKey(a) <= CountKey(b)
    requires |ps| == |top| && forall i :: 0 <= i < |top| ==> ps[i] == top[i].key
    ensures forall c, p :: IsCategory(rows, c) && c !in ps && p in ps ==> |Members(rows, c)| <= |Members(rows, p)|
  {
    forall c, p | IsCategory(rows, c) && c !in ps && p in ps
      ensures |Members(rows, c)| <= |Members(rows, p)|
    {
      var t := Tally(c, |Members(rows, c)|);
      assert t in u;
      forall i | 0 <= i < |top| ensures top[i] != t {
        assert ps[i] in ps;
      }
      assert t !in multiset(top);
      assert t in multiset(u) - multiset(top);
      var i :| 0 <= i < |ps| && ps[i] == p;
      assert top[i] in top;
      assert CountKey(t) <= CountKey(top[i]);
    }
  }

  /** Line 356's mask: a row of a popular category in one of the listed sizes. */
  function InPopularSizes(ps: seq<string>): Row -> bool {
    (x: Row) => x.category in ps && x.size in SizeOrder
  }

  /** Some row of category `c` has one of the listed sizes. */
  ghost predicate HasListedRow(rows: seq<Row>, c: string) {
    exists x :: x in rows && x.category == c && x.size in SizeOrder
  }

  /** Some row of a popular category has size `s`. */
  ghost predicate PopularHasSize(rows: seq<Row>, ps: seq<string>, s: string) {
    exists x :: x in rows && x.category in ps && x.size == s
  }

  /** The value chart 12 should show for category `c` and size `s`: the mean calories of
      the rows with both; 0 when there are none but some popular row has that size (the
      `fill_value=0` of `unstack`); missing when no popular row has it (the column only
      comes into being through `reindex`). */
  ghost function ExpectedCell(rows: seq<Row>, ps: seq<string>, c: string, s: string): Option<real> {
    var g := Group(Members(rows, c), BySize, s);
    if |g| > 0 then Some(Mean(Column(g, Calories)))
    else if PopularHasSize(rows, ps, s) then Some(0.0)
    else None
  }

  /** One cell as the script computes it, from the selected rows: missing exactly when
      no selected row has size `s`, 0 when category `c` has none of that size, and
      otherwise between the calories of two of its drinks of that size. */
  function ProgressionCell(sel: seq<Row>, c: string, s: string): (v: Option<real>)
    ensures v.None? <==> forall x :: x in sel ==> x.size != s
    ensures v.Some? && (forall x :: x in sel && x.category == c ==> x.size != s) ==> v.value == 0.0
    ensures (exists x :: x in sel && x.category == c && x.size == s) ==>
      v.Some? && exists lo, hi :: (lo in sel && hi in sel && lo.category == c && hi.category == c &&
                                   lo.size == s && hi.size == s && lo.calories <= v.value <= hi.calories)
  {
    var g := Group(Group(sel, ByCategory, c), BySize, s);
    if |g| > 0 then
      assert g[0] in g && g[0] in Group(sel, BySize, s);
      CaloriesBracketed(g);
      Some(Mean(Column(g, Calories)))
    else if |Group(sel, BySize, s)| > 0 then
      assert Group(sel, BySize, s)[0] in Group(sel, BySize, s);
      Some(0.0)
    else None
  }

  /** Selecting before grouping gives the cell the group-first definition promises. */
  lemma CellAgrees(rows: seq<Row>, ps: seq<string>, c: string, s: string)
    requires c in ps && s in SizeOrder
    ensures ProgressionCell(Where(rows, InPopularSizes(ps)), c, s) == ExpectedCell(rows, ps, c, s)
  {
    var p := InPopularSizes(ps);
    var sel := Where(rows, p);
    var m := Group(rows, ByCategory, c);
    GroupWhere(rows, p, ByCategory, c);
    GroupWhere(m, p, BySize, s);
    var g := Group(m, BySize, s);
    forall x | x in g ensures p(x) {
      assert x in m;
    }
    WhereAll(g, p);
    if PopularHasSize(rows, ps, s) {
      var x :| x in rows && x.category in ps && x.size == s;
      assert x in sel;
      assert x in Group(sel, BySize, s);
    }
    if |Group(sel, BySize, s)| > 0 {
      assert Group(sel, BySize, s)[0] in Group(sel, BySize, s);
    }
  }

  /** One row of chart 12: a category and its four size cells. */
  datatype Progression = Progression(category: string, cells: seq<Option<real>>)

  function ProgressionRow(sel: seq<Row>, c: string): (p: Progression)
    ensures p.category == c && |p.cells| == |SizeOrder|
    ensures forall j :: 0 <= j < |SizeOrder| ==> p.cells[j] == ProgressionCell(sel, c, SizeOrder[j])
  {
    Progression(c, seq(|SizeOrder|, j requires 0 <= j < |SizeOrder| => ProgressionCell(sel, c, SizeOrder[j])))
  }

  /** Lines 355-357: for each popular category that has a row in a listed
      size, in category-name order, one cell per listed size as `ExpectedCell` describes. */
  function SizeProgression(rows: seq<Row>): (r: seq<Progression>)
    ensures forall i, j :: 0 <= i < j < |r| ==> LexLess(r[i].category, r[j].category)
    ensures forall i :: 0 <= i < |r| ==> r[i].category in PopularCategories(rows) && |r[i].cells| == |SizeOrder|
    ensures forall i :: 0 <= i < |r| ==> HasListedRow(rows, r[i].category)
    ensures forall x :: x in rows && x.category in PopularCategories(rows) && x.size in SizeOrder ==>
      exists i :: 0 <= i < |r| && r[i].category == x.category
    ensures forall i, j :: 0 <= i < |r| && 0 <= j < |SizeOrder| ==>
      r[i].cells[j] == ExpectedCell(rows, PopularCategories(rows), r[i].category, SizeOrder[j])
  {
    var ps := PopularCategories(rows);
    var sel := Where(rows, InPopularSizes(ps));
    var cats := GroupKeys(sel, ByCategory);
    var r := seq(|cats|, i requires 0 <= i < |cats| => ProgressionRow(sel, cats[i]));
    ProgressionFacts(rows, ps, cats, r);
    r
  }

  lemma ProgressionFacts(rows: seq<Row>, ps: seq<string>, cats: seq<string>, r: seq<Progression>)
    requires cats == GroupKeys(Where(rows, InPopularSizes(ps)), ByCategory)
    requires |r| == |cats|
    requires forall i :: 0 <= i < |r| ==> r[i].category == cats[i] && |r[i].cells| == |SizeOrder|
    requires forall i, j :: 0 <= i < |r| && 0 <= j < |SizeOrder| ==>
      r[i].cells[j] == ProgressionCell(Where(rows, InPopularSizes(ps)), cats[i], SizeOrder[j])
    ensures forall i, j :: 0 <= i < j < |r| ==> LexLess(r[i].category, r[j].category)
    ensures forall i :: 0 <= i < |r| ==> r[i].category in ps
    ensures forall i :: 0 <= i < |r| ==> HasListedRow(rows, r[i].category)
    ensures forall x :: x in rows && x.category in ps && x.size in SizeOrder ==>
      exists i :: 0 <= i < |r| && r[i].category == x.category
    ensures forall i, j :: 0 <= i < |r| && 0 <= j < |SizeOrder| ==>
      r[i].cells[j] == ExpectedCell(rows, ps, r[i].category, SizeOrder[j])
  {
    var p := InPopularSizes(ps);
    var sel := Where(rows, p);
    forall i | 0 <= i < |r|
      ensures r[i].category in ps
      ensures HasListedRow(rows, r[i].category)
    {
      assert cats[i] in cats;
      var x :| x in sel && KeyOf(x, ByCategory) == cats[i];
      assert p(x);
    }
    forall x | x in rows && x.category in ps && x.size in SizeOrder
      ensures exists i :: 0 <= i < |r| && r[i].category == x.category
    {
      assert p(x);
      assert x in sel;
      assert HasKey(sel, ByCategory, x.category);
      var i :| 0 <= i < |cats| && cats[i] == x.category;
      assert r[i].category == x.category;
    }
    forall i, j | 0 <= i < |r| && 0 <= j < |SizeOrder|
      ensures r[i].cells[j] == ExpectedCell(rows, ps, r[i].category, SizeOrder[j])
    {
      CellAgrees(rows, ps, r[i].category, SizeOrder[j]);
    }
  }
}

=== FILE: grouping.dfy ===
/** `DataFrame.groupby` on one column: the distinct keys in the order pandas
    lists them (sorted by Python string comparison) and the rows of each group. */
module Grouping {
  import opened Text
  import opened Menu

  /** The columns the analyses group by. */
  datatype GroupColumn = ByCategory | BySize | ByMilkType

  function KeyOf(r: Row, column: GroupColumn): string {
    match column
    case ByCategory => r.category
    case BySize => r.size
    case ByMilkType => r.milkType
  }

  /** Some row carries column `k`. */
  ghost predicate HasKey(rows: seq<Row>, column: GroupColumn, k: string) {
    exists r :: r in rows && KeyOf(r, column) == k
  }

  /** The rows whose column is `k`, in table order. */
  function Group(rows: seq<Row>, column: GroupColumn, k: string): (g: seq<Row>)
    ensures forall r :: r in g <==> r in rows && KeyOf(r, column) == k
    ensures forall r {:trigger multiset(g)[r]} :: multiset(g)[r] == if KeyOf(r, column) == k then multiset(rows)[r] else 0
    ensures |g| <= |rows|
  {
    if |rows| == 0 then []
    else
      assert forall r :: r in rows <==> r == rows[0] || r in rows[1..];
      assert rows == [rows[0]] + rows[1..];
      (if KeyOf(rows[0], column) == k then [rows[0]] else []) + Group(rows[1..], column, k)
  }

  ghost predicate StrictlyIncreasing(ks: seq<string>) {
    forall i, j :: 0 <= i < j < |ks| ==> LexLess(ks[i], ks[j])
  }

  ghost predicate Distinct<T>(s: seq<T>) {
    forall i, j :: 0 <= i < j < |s| ==> s[i] != s[j]
  }

  lemma StrictlyIncreasingIsDistinct(ks: seq<string>)
    requires StrictlyIncreasing(ks)
    ensures Distinct(ks)
  {
    forall i, j | 0 <= i < j < |ks|
      ensures ks[i] != ks[j]
    {
      LexLessIrreflexive(ks[i]);
    }
  }

  /** Adds `k` to a strictly increasing key list, keeping it strictly increasing. */
  function InsertKey(k: string, ks: seq<string>): (r: seq<string>)
    requires StrictlyIncreasing(ks)
    ensures StrictlyIncreasing(r)
    ensures forall x :: x in r <==> x == k || x in ks
    decreases |ks|
  {
    if |ks| == 0 then [k]
    else if k == ks[0] then ks
    else if LexLess(k, ks[0]) then
      assert forall j :: 0 < j < |ks| ==> LexLess(k, ks[j]) by {
        forall j | 0 < j < |ks| ensures LexLess(k, ks[j]) {
          LexLessTransitive(k, ks[0], ks[j]);
        }
      }
      [k] + ks
    else
      LexLessTotal(k, ks[0]);
      var tail := InsertKey(k, ks[1..]);
      assert forall x :: x in ks <==> x == ks[0] || x in ks[1..];
      assert forall j :: 0 <= j < |tail| ==> LexLess(ks[0], tail[j]) by {
        forall j | 0 <= j < |tail| ensures LexLess(ks[0], tail[j]) {
          if tail[j] != k {
            assert tail[j] in tail;
            var m :| 0 <= m < |ks[1..]| && ks[1..][m] == tail[j];
            assert ks[m + 1] == tail[j];
          }
        }
      }
      [ks[0]] + tail
  }

  /** The group keys of `groupby(column)`, in Python string order, each exactly once. */
  function GroupKeys(rows: seq<Row>, column: GroupColumn): (ks: seq<string>)
    ensures StrictlyIncreasing(ks)
    ensures forall k :: k in ks <==> HasKey(rows, column, k)
  {
    if |rows| == 0 then []
    else
      assert forall r :: r in rows <==> r == rows[0] || r in rows[1..];
      InsertKey(KeyOf(rows[0], column), GroupKeys(rows[1..], column))
  }

  /** Every listed key has at least one row. */
  lemma GroupOfKeyNonEmpty(rows: seq<Row>, column: GroupColumn, k: string)
    requires k in GroupKeys(rows, column)
    ensures |Group(rows, column, k)| > 0
  {
    var r :| r in rows && KeyOf(r, column) == k;
    assert r in Group(rows, column, k);
  }

  lemma GroupKeysNonEmpty(rows: seq<Row>, column: GroupColumn)
    ensures forall k :: k in GroupKeys(rows, column) ==> |Group(rows, column, k)| > 0
  {
    forall k | k in GroupKeys(rows, column) ensures |Group(rows, column, k)| > 0 {
      GroupOfKeyNonEmpty(rows, column, k);
    }
  }

  /** Number of times `x` appears in `ks`. */
  function Occurrences(ks: seq<string>, x: string): nat {
    if |ks| == 0 then 0 else (if ks[0] == x then 1 else 0) + Occurrences(ks[1..], x)
  }

  lemma {:induction false} OccurrencesOnce(ks: seq<string>, x: string)
    requires Distinct(ks)
    ensures Occurrences(ks, x) == (if x in ks then 1 else 0)
  {
    if |ks| > 0 {
      OccurrencesOnce(ks[1..], x);
      assert forall y :: y in ks <==> y == ks[0] || y in ks[1..];
    }
  }

  /** The combined size of the groups named in `ks`. */
  function GroupSizes(rows: seq<Row>, column: GroupColumn, ks: seq<string>): nat {
    if |ks| == 0 then 0 else |Group(rows, column, ks[0])| + GroupSizes(rows, column, ks[1..])
  }

  /** Peeling off the first row takes one from the group of its key only. */
  lemma {:induction false} GroupSizesStep(rows: seq<Row>, column: GroupColumn, ks: seq<string>)
    requires |rows| > 0
    ensures GroupSizes(rows, column, ks) == Occurrences(ks, KeyOf(rows[0], column)) + GroupSizes(rows[1..], column, ks)
  {
    if |ks| > 0 {
      GroupSizesStep(rows, column, ks[1..]);
    }
  }

  /** Groups over distinct keys that cover every row partition the table: their sizes add up to it. */
  lemma {:induction false} GroupSizesPartition(rows: seq<Row>, column: GroupColumn, ks: seq<string>)
    requires Distinct(ks)
    requires forall r :: r in rows ==> KeyOf(r, column) in ks
    ensures GroupSizes(rows, column, ks) == |rows|
  {
    if |rows| > 0 {
      var x := KeyOf(rows[0], column);
      GroupSizesStep(rows, column, ks);
      assert rows[0] in rows;
      OccurrencesOnce(ks, x);
      assert forall r :: r in rows[1..] ==> r in rows;
      GroupSizesPartition(rows[1..], column, ks);
      assert GroupSizes(rows[1..], column, ks) == |rows| - 1;
    } else {
      GroupSizesOfNoRows(rows, column, ks);
    }
  }

  lemma {:induction false} GroupSizesOfNoRows(rows: seq<Row>, column: GroupColumn, ks: seq<string>)
    requires |rows| == 0
    ensures GroupSizes(rows, column, ks) == 0
  {
    if |ks| > 0 {
      GroupSizesOfNoRows(rows, column, ks[1..]);
    }
  }

  /** Boolean-mask selection `df[mask]`: the rows satisfying `p`, in table order. */
  function Where(rows: seq<Row>, p: Row -> bool): (s: seq<Row>)
    ensures forall r :: r in s <==> r in rows && p(r)
    ensures forall r {:trigger multiset(s)[r]} :: multiset(s)[r] == if p(r) then multiset(rows)[r] else 0
    ensures |s| <= |rows|
  {
    if |rows| == 0 then []
    else
      assert forall r :: r in rows <==> r == rows[0] || r in rows[1..];
      assert rows == [rows[0]] + rows[1..];
      (if p(rows[0]) then [rows[0]] else []) + Where(rows[1..], p)
  }

  /** Selecting then grouping is grouping then selecting. */
  lemma {:induction false} GroupWhere(rows: seq<Row>, p: Row -> bool, column: GroupColumn, k: string)
    ensures Group(Where(rows, p), column, k) == Where(Group(rows, column, k), p)
  {
    if |rows| > 0 {
      GroupWhere(rows[1..], p, column, k);
      var w := Where(rows, p);
      if p(rows[0]) {
        assert w == [rows[0]] + Where(rows[1..], p);
        assert w[0] == rows[0] && w[1..] == Where(rows[1..], p);
      } else {
        assert w == Where(rows[1..], p);
      }
      var g := Group(rows, column, k);
      if KeyOf(rows[0], column) == k {
        assert g[0] == rows[0] && g[1..] == Group(rows[1..], column, k);
      } else {
        assert g == Group(rows[1..], column, k);
      }
    }
  }

  /** A selection every row passes keeps the whole sequence. */
  lemma {:induction false} WhereAll(rows: seq<Row>, p: Row -> bool)
    requires forall r :: r in rows ==> p(r)
    ensures Where(rows, p) == rows
  {
    if |rows| > 0 {
      assert rows[0] in rows;
      assert forall r :: r in rows[1..] ==> r in rows;
      WhereAll(rows[1..], p);
      assert rows == [rows[0]] + rows[1..];
    }
  }

  /** When `p` holds for every row labelled `k`, selecting first leaves group `k` unchanged. */
  lemma GroupWhereKept(rows: seq<Row>, p: Row -> bool, column: GroupColumn, k: string)
    requires forall r :: r in rows && KeyOf(r, column) == k ==> p(r)
    ensures Group(Where(rows, p), column, k) == Group(rows, column, k)
  {
    GroupWhere(rows, p, column, k);
    WhereAll(Group(rows, column, k), p);
  }

  /** A row appended with another key leaves group `k` unchanged. */
  lemma {:induction false} GroupAppendOther(rows: seq<Row>, x: Row, column: GroupColumn, k: string)
    requires KeyOf(x, column) != k
    ensures Group(rows + [x], column, k) == Group(rows, column, k)
  {
    if |rows| > 0 {
      assert (rows + [x])[1..] == rows[1..] + [x];
      GroupAppendOther(rows[1..], x, column, k);
    } else {
      assert Group([x], column, k) == [] + Group([x][1..], column, k);
    }
  }

  /** A non-empty group names one of its rows. */
  lemma GroupWitness(rows: seq<Row>, column: GroupColumn, k: string) returns (x: Row)
    requires |Group(rows, column, k)| > 0
    ensures x in rows && KeyOf(x, column) == k
  {
    x := Group(rows, column, k)[0];
    assert x in Group(rows, column, k);
  }
}

=== FILE: menu.dfy ===
/** The menu table and its normalisation: percentage columns to numbers,
    caffeine and total fat coerced to numbers or missing, and the two labels
    derived from the preparation text (generate_charts.py, lines 21-40 and 154). */
module Menu {
  import opened Results
  import opened Text
  import opened Numeric

  /** One CSV field as pandas reads it: `Missing` for a field read as NaN (an empty field,
      or a marker such as "NA", "N/A", "NaN" or "null"), else its text. */
  datatype Cell = Missing | Raw(text: string)

  /** A menu row before normalisation. Columns the analyses never read (trans fat,
      saturated fat, cholesterol, fibre) are not carried. */
  datatype RawRow = RawRow(
    category: string,
    beverage: string,
    prep: string,
    calories: real,
    totalFat: Cell,
    sodium: real,
    carbohydrates: real,
    sugars: real,
    protein: real,
    vitaminA: Cell,
    vitaminC: Cell,
    calcium: Cell,
    iron: Cell,
    caffeine: Cell)

  /** A normalised menu row, with the derived `Size` and `Milk_Type` labels. */
  datatype Row = Row(
    category: string,
    beverage: string,
    prep: string,
    calories: real,
    totalFat: Option<real>,
    sodium: real,
    carbohydrates: real,
    sugars: real,
    protein: real,
    vitaminA: Option<real>,
    vitaminC: Option<real>,
    calcium: Option<real>,
    iron: Option<real>,
    caffeine: Option<real>,
    size: string,
    milkType: string)

  /** Why loading stops: `astype(float)` raising on a percentage cell (the column and
      the offending text), or `.str` raising on a percentage column `read_csv` read as
      numbers (the column). */
  datatype LoadError = MalformedValue(column: string, text: string) | NotText(column: string)

  const SizeOrder: seq<string> := ["Short", "Tall", "Grande", "Venti"]
  const OtherSize: string := "Other"
  const MilkTypes: seq<string> := ["Nonfat Milk", "2% Milk", "Soymilk", "Whole Milk"]
  const NoMilk: string := "No Milk"

  // ---------------------------------------------------------------------------
  // Percentage and numeric cells (lines 27-32, 154)
  // ---------------------------------------------------------------------------

  /** `str.rstrip('%').replace('', '0').astype(float)` on one cell: trailing '%' signs
      are dropped, an empty residue reads as 0, any other residue must be a numeral.
      A missing cell stays missing; a non-numeral fails with its residue. */
  function ParsePercent(c: Cell): (r: Result<Option<real>, string>)
    ensures c.Missing? ==> r == Ok(None)
    ensures r.Ok? && r.value.Some? ==> c.Raw?
    ensures r.Err? ==> c.Raw? && r.error == StripTrailing(c.text, '%') && |r.error| > 0
  {
    match c
    case Missing => Ok(None)
    case Raw(s) =>
      var residue := StripTrailing(s, '%');
      if residue == "" then Ok(Some(0.0))
      else match ParseNumber(residue)
        case Some(v) => Ok(Some(v))
        case None => Err(residue)
  }

  /** Extra trailing '%' signs never change the reading. */
  lemma PercentIgnoresTrailingSigns(s: string)
    ensures ParsePercent(Raw(s + "%")) == ParsePercent(Raw(s))
  {
    StripTrailingAbsorbs(s, '%');
  }

  /** Text without a trailing '%' is read as a plain numeral, and fails exactly when it is not one. */
  lemma PercentWithoutSign(s: string)
    requires |s| > 0 && s[|s| - 1] != '%'
    ensures ParsePercent(Raw(s)).Ok? <==> ParseNumber(s).Some?
    ensures ParseNumber(s).Some? ==> ParsePercent(Raw(s)) == Ok(ParseNumber(s))
  {
    StripTrailingNoop(s, '%');
  }

  /** A whole percentage such as "10%" reads as its number. */
  lemma PercentRoundTrip(n: nat)
    ensures ParsePercent(Raw(NatToString(n) + "%")) == Ok(Some(n as real))
  {
    PercentIgnoresTrailingSigns(NatToString(n));
    PercentWithoutSign(NatToString(n));
    NatRoundTrip(n);
  }

  /** Cells made only of '%' signs read as 0, as does an empty text. */
  lemma {:induction false} PercentSignsOnlyIsZero(k: nat)
    ensures ParsePercent(Raw(seq(k, _ => '%'))) == Ok(Some(0.0))
  {
    if k > 0 {
      PercentSignsOnlyIsZero(k - 1);
      assert seq(k, _ => '%') == seq(k - 1, _ => '%') + "%";
      PercentIgnoresTrailingSigns(seq(k - 1, _ => '%'));
    }
  }

  /** `pd.to_numeric(errors='coerce')` on one cell: a numeral is read, anything else
      (a placeholder such as "Varies", or a field read as NaN) becomes missing. */
  function CoerceNumber(c: Cell): (r: Option<real>)
    ensures r.Some? <==> c.Raw? && ParseNumber(c.text).Some?
    ensures r.Some? ==> r == ParseNumber(c.text)
  {
    match c
    case Missing => None
    case Raw(s) => ParseNumber(s)
  }

  // ---------------------------------------------------------------------------
  // Derived labels (lines 35-40)
  // ---------------------------------------------------------------------------

  /** `vocab[i]` is the earliest vocabulary entry occurring in `text`. */
  ghost predicate FirstOccurring(vocab: seq<string>, text: string, i: nat) {
    i < |vocab| && Occurs(vocab[i], text) && forall j :: 0 <= j < i ==> !Occurs(vocab[j], text)
  }

  /** Index of the first vocabulary entry that is a substring of `text`, if any. */
  function FirstMatch(vocab: seq<string>, text: string): (r: Option<nat>)
    ensures r.Some? ==> FirstOccurring(vocab, text, r.value)
    ensures r.None? ==> forall j :: 0 <= j < |vocab| ==> !Occurs(vocab[j], text)
    decreases |vocab|
  {
    if |vocab| == 0 then None
    else
      ContainsIffOccurs(text, vocab[0]);
      if Contains(text, vocab[0]) then Some(0)
      else match FirstMatch(vocab[1..], text)
        case None => None
        case Some(k) => Some(k + 1)
  }

  /** `next((v for v in vocab if v in text), fallback)`. */
  function Classify(vocab: seq<string>, text: string, fallback: string): string {
    match FirstMatch(vocab, text)
    case Some(i) => vocab[i]
    case None => fallback
  }

  /** The derived `Size` label of a preparation text. */
  function DeriveSize(prep: string): (r: string)
    ensures r in SizeOrder || r == OtherSize
    ensures forall i :: 0 <= i < |SizeOrder| ==> (r == SizeOrder[i] <==> FirstOccurring(SizeOrder, prep, i))
    ensures r == OtherSize <==> forall j :: 0 <= j < |SizeOrder| ==> !Occurs(SizeOrder[j], prep)
  {
    Classify(SizeOrder, prep, OtherSize)
  }

  /** The derived `Milk_Type` label of a preparation text. */
  function DeriveMilkType(prep: string): (r: string)
    ensures r in MilkTypes || r == NoMilk
    ensures forall i :: 0 <= i < |MilkTypes| ==> (r == MilkTypes[i] <==> FirstOccurring(MilkTypes, prep, i))
    ensures r == NoMilk <==> forall j :: 0 <= j < |MilkTypes| ==> !Occurs(MilkTypes[j], prep)
  {
    Classify(MilkTypes, prep, NoMilk)
  }

  /** With several sizes mentioned, the earlier vocabulary entry wins: "Short" beats "Tall". */
  lemma ShortBeatsTall(prep: string)
    requires Occurs("Short", prep) && Occurs("Tall", prep)
    ensures DeriveSize(prep) == "Short"
  {
    assert FirstOccurring(SizeOrder, prep, 0);
  }

  /** The worked example: "Short Nonfat Milk" is a Short with Nonfat Milk. */
  lemma ShortNonfatExample()
    ensures DeriveSize("Short Nonfat Milk") == "Short"
    ensures DeriveMilkType("Short Nonfat Milk") == "Nonfat Milk"
  {
    var p := "Short Nonfat Milk";
    assert OccursAt("Short", p, 0);
    assert OccursAt("Nonfat Milk", p, 6);
    assert FirstOccurring(SizeOrder, p, 0);
    assert FirstOccurring(MilkTypes, p, 0);
  }

  // ---------------------------------------------------------------------------
  // Whole-table normalisation
  // ---------------------------------------------------------------------------

  /** The four percentage-valued columns, in the order the script converts them. */
  datatype PercentColumn = VitaminA | VitaminC | Calcium | Iron

  function ColumnName(col: PercentColumn): string {
    match col
    case VitaminA => "Vitamin A (% DV)"
    case VitaminC => "Vitamin C (% DV)"
    case Calcium => "Calcium (% DV)"
    case Iron => "Iron (% DV)"
  }

  function CellOf(raw: RawRow, col: PercentColumn): Cell {
    match col
    case VitaminA => raw.vitaminA
    case VitaminC => raw.vitaminC
    case Calcium => raw.calcium
    case Iron => raw.iron
  }

  /** One percentage cell, with a failure labelled by its column. */
  function PercentCell(raw: RawRow, col: PercentColumn): Result<Option<real>, LoadError> {
    match ParsePercent(CellOf(raw, col))
    case Ok(v) => Ok(v)
    case Err(residue) => Err(MalformedValue(ColumnName(col), residue))
  }

  function Build(raw: RawRow, a: Option<real>, c: Option<real>, ca: Option<real>, ir: Option<real>): Row {
    Row(raw.category, raw.beverage, raw.prep, raw.calories, CoerceNumber(raw.totalFat),
        raw.sodium, raw.carbohydrates, raw.sugars, raw.protein, a, c, ca, ir,
        CoerceNumber(raw.caffeine), DeriveSize(raw.prep), DeriveMilkType(raw.prep))
  }

  /** Normalises one row on its own; the reference for the column-wise table pass. It
      fails only with one of its percentage cells' errors; `NormalizeRowOk` states when
      it loads and what the loaded row is. */
  function NormalizeRow(raw: RawRow): (r: Result<Row, LoadError>)
    ensures r.Err? ==> exists col :: PercentCell(raw, col) == Err(r.error)
  {
    var a :- PercentCell(raw, VitaminA);
    var c :- PercentCell(raw, VitaminC);
    var ca :- PercentCell(raw, Calcium);
    var ir :- PercentCell(raw, Iron);
    Ok(Build(raw, a, c, ca, ir))
  }

  /** A row normalises exactly when each of its four percentage cells does. */
  lemma NormalizeRowOk(raw: RawRow)
    ensures NormalizeRow(raw).Ok? <==> forall col :: PercentCell(raw, col).Ok?
    ensures NormalizeRow(raw).Ok? ==>
      (NormalizeRow(raw).value
         == Build(raw, PercentCell(raw, VitaminA).value, PercentCell(raw, VitaminC).value,
                  PercentCell(raw, Calcium).value, PercentCell(raw, Iron).value))
  {
    var a, c := PercentCell(raw, VitaminA), PercentCell(raw, VitaminC);
    var ca, ir := PercentCell(raw, Calcium), PercentCell(raw, Iron);
    if a.Ok? && c.Ok? && ca.Ok? && ir.Ok? {
      assert NormalizeRow(raw) == Ok(Build(raw, a.value, c.value, ca.value, ir.value));
      forall col ensures PercentCell(raw, col).Ok? {
        match col
        case VitaminA =>
        case VitaminC =>
        case Calcium =>
        case Iron =>
      }
    } else {
      assert NormalizeRow(raw).Err?;
    }
  }

  /** One percentage column converted over the whole table; the first bad cell fails it. */
  function ParseColumn(raws: seq<RawRow>, col: PercentColumn): (r: Result<seq<Option<real>>, LoadError>)
    ensures r.Ok? <==> forall i :: 0 <= i < |raws| ==> PercentCell(raws[i], col).Ok?
    ensures r.Ok? ==> |r.value| == |raws| && forall i :: 0 <= i < |raws| ==> r.value[i] == PercentCell(raws[i], col).value
    ensures r.Err? ==> exists i :: 0 <= i < |raws| && PercentCell(raws[i], col) == Err(r.error)
  {
    if |raws| == 0 then Ok([])
    else
      var head :- PercentCell(raws[0], col);
      var tail :- ParseColumn(raws[1..], col);
      Ok([head] + tail)
  }

  /** A field `read_csv` cannot read as a number. */
  predicate TextField(c: Cell) {
    c.Raw? && ParseNumber(c.text).None?
  }

  function HasTextField(raws: seq<RawRow>, col: PercentColumn): (b: bool)
    ensures b <==> exists i :: 0 <= i < |raws| && TextField(CellOf(raws[i], col))
  {
    if |raws| == 0 then false
    else
      assert forall i :: 1 <= i < |raws| ==> raws[i] == raws[1..][i - 1];
      TextField(CellOf(raws[0], col)) || HasTextField(raws[1..], col)
  }

  /** `read_csv` reads a column as text when the table has no rows or some field of the
      column is not a number. A column of numbers and NaN fields is read as numbers,
      and `.str` (line 29) raises on it. */
  predicate ReadAsText(raws: seq<RawRow>, col: PercentColumn) {
    |raws| == 0 || HasTextField(raws, col)
  }

  /** Line 29 on one column: `.str` needs a text column, then every cell must convert. */
  function ConvertColumn(raws: seq<RawRow>, col: PercentColumn): (r: Result<seq<Option<real>>, LoadError>)
    ensures r.Ok? <==> ReadAsText(raws, col) && forall i :: 0 <= i < |raws| ==> PercentCell(raws[i], col).Ok?
    ensures r.Ok? ==> |r.value| == |raws| && forall i :: 0 <= i < |raws| ==> r.value[i] == PercentCell(raws[i], col).value
    ensures r.Err? ==>
      (!ReadAsText(raws, col) && r.error == NotText(ColumnName(col))) ||
      (exists i :: 0 <= i < |raws| && PercentCell(raws[i], col) == Err(r.error))
  {
    if !ReadAsText(raws, col) then Err(NotText(ColumnName(col))) else ParseColumn(raws, col)
  }

  /** In a column whose every cell converts, being read as text means some cell carries
      a '%' sign (or is blank text): a column of bare numbers stops the script. */
  lemma TextColumnHasPercentSign(raws: seq<RawRow>, col: PercentColumn)
    requires |raws| > 0
    requires forall i :: 0 <= i < |raws| ==> PercentCell(raws[i], col).Ok?
    ensures ReadAsText(raws, col) <==>
      exists i :: 0 <= i < |raws| && CellOf(raws[i], col).Raw? &&
        var s := CellOf(raws[i], col).text; |s| == 0 || s[|s| - 1] == '%'
  {
    forall i | 0 <= i < |raws| && CellOf(raws[i], col).Raw?
      ensures TextField(CellOf(raws[i], col)) <==>
        var s := CellOf(raws[i], col).text; |s| == 0 || s[|s| - 1] == '%'
    {
      var s := CellOf(raws[i], col).text;
      if |s| > 0 && s[|s| - 1] != '%' {
        PercentWithoutSign(s);
      } else if |s| > 0 {
        assert !NumeralChars(s, true) by {
          assert !IsDigit(s[|s| - 1]);
        }
      }
    }
  }

  /** Every percentage column is read as text, so line 29's `.str` applies to each. */
  predicate TextColumns(raws: seq<RawRow>) {
    ReadAsText(raws, VitaminA) && ReadAsText(raws, VitaminC) && ReadAsText(raws, Calcium) && ReadAsText(raws, Iron)
  }

  /** Lines 27-40 and 154 over the whole table: the four percentage columns are converted
      one after another (the first column read as numbers, or the first malformed cell,
      aborts the load), then caffeine and total fat are coerced and the two labels derived. */
  function Normalize(raws: seq<RawRow>): (r: Result<seq<Row>, LoadError>)
    ensures r.Ok? <==> TextColumns(raws) && forall i :: 0 <= i < |raws| ==> NormalizeRow(raws[i]).Ok?
    ensures r.Ok? ==> |r.value| == |raws| && forall i :: 0 <= i < |raws| ==> r.value[i] == NormalizeRow(raws[i]).value
  {
    NormalizeAgrees(raws);
    CellsOfFourColumns(raws);
    var a :- ConvertColumn(raws, VitaminA);
    var c :- ConvertColumn(raws, VitaminC);
    var ca :- ConvertColumn(raws, Calcium);
    var ir :- ConvertColumn(raws, Iron);
    Ok(seq(|raws|, i requires 0 <= i < |raws| => Build(raws[i], a[i], c[i], ca[i], ir[i])))
  }

  /** Every cell converts exactly when every cell of each of the four columns does. */
  lemma CellsOfFourColumns(raws: seq<RawRow>)
    ensures (forall i, col :: 0 <= i < |raws| ==> PercentCell(raws[i], col).Ok?) <==>
      (forall i :: 0 <= i < |raws| ==> PercentCell(raws[i], VitaminA).Ok?) &&
      (forall i :: 0 <= i < |raws| ==> PercentCell(raws[i], VitaminC).Ok?) &&
      (forall i :: 0 <= i < |raws| ==> PercentCell(raws[i], Calcium).Ok?) &&
      (forall i :: 0 <= i < |raws| ==> PercentCell(raws[i], Iron).Ok?)
  {
    if (forall i :: 0 <= i < |raws| ==> PercentCell(raws[i], VitaminA).Ok?)
          && (forall i :: 0 <= i < |raws| ==> PercentCell(raws[i], VitaminC).Ok?)
          && (forall i :: 0 <= i < |raws| ==> PercentCell(raws[i], Calcium).Ok?)
          && (forall i :: 0 <= i < |raws| ==> PercentCell(raws[i], Iron).Ok?) {
      forall i, col | 0 <= i < |raws| ensures PercentCell(raws[i], col).Ok? {
        match col
        case VitaminA =>
        case VitaminC =>
        case Calcium =>
        case Iron =>
      }
    }
  }

  /** A failed load names a percentage column read as numbers, or a malformed cell. */
  lemma NormalizeError(raws: seq<RawRow>)
    requires Normalize(raws).Err?
    ensures
      (exists col :: !ReadAsText(raws, col) && Normalize(raws).error == NotText(ColumnName(col))) ||
      (exists i, col :: 0 <= i < |raws| && PercentCell(raws[i], col) == Err(Normalize(raws).error))
  {
    var e := Normalize(raws).error;
    var a, c := ConvertColumn(raws, VitaminA), ConvertColumn(raws, VitaminC);
    var ca, ir := ConvertColumn(raws, Calcium), ConvertColumn(raws, Iron);
    if a.Err? {
      assert e == a.error;
    } else if c.Err? {
      assert e == c.error;
    } else if ca.Err? {
      assert e == ca.error;
    } else {
      assert e == ir.error;
    }
  }

  /** The four columns are every percentage column. */
  lemma TextColumnsAll(raws: seq<RawRow>)
    ensures TextColumns(raws) <==> forall col :: ReadAsText(raws, col)
  {
    if TextColumns(raws) {
      forall col ensures ReadAsText(raws, col) {
        match col
        case VitaminA =>
        case VitaminC =>
        case Calcium =>
        case Iron =>
      }
    }
  }

  lemma NormalizeAgrees(raws: seq<RawRow>)
    ensures (forall i :: 0 <= i < |raws| ==> NormalizeRow(raws[i]).Ok?)
        <==> (forall i, col :: 0 <= i < |raws| ==> PercentCell(raws[i], col).Ok?)
    ensures forall i :: 0 <= i < |raws| && NormalizeRow(raws[i]).Ok? ==>
      (NormalizeRow(raws[i]).value
         == Build(raws[i], PercentCell(raws[i], VitaminA).value, PercentCell(raws[i], VitaminC).value,
                  PercentCell(raws[i], Calcium).value, PercentCell(raws[i], Iron).value))
  {
    forall i | 0 <= i < |raws| {
      NormalizeRowOk(raws[i]);
    }
  }

  /** After a successful load every row carries one of the derived labels. */
  lemma NormalizedLabels(raws: seq<RawRow>)
    requires Normalize(raws).Ok?
    ensures forall r :: r in Normalize(raws).value ==>
      (r.size in SizeOrder || r.size == OtherSize) && (r.milkType in MilkTypes || r.milkType == NoMilk)
  {
    var rows := Normalize(raws).value;
    forall r | r in rows
      ensures (r.size in SizeOrder || r.size == OtherSize) && (r.milkType in MilkTypes || r.milkType == NoMilk)
    {
      var i :| 0 <= i < |rows| && rows[i] == r;
      NormalizeRowOk(raws[i]);
    }
  }
}

=== FILE: numeric.dfy ===
/** Decimal text to number, the conversion behind `astype(float)` and
    `pd.to_numeric` for the plain decimal forms the menu data uses. */
module Numeric {
  import opened Results

  predicate IsDigit(c: char) {
    '0' <= c <= '9'
  }

  predicate AllDigits(s: string) {
    forall i :: 0 <= i < |s| ==> IsDigit(s[i])
  }

  function DigitValue(c: char): (d: nat)
    requires IsDigit(c)
    ensures d < 10
  {
    (c as int) - ('0' as int)
  }

  function DigitChar(d: nat): (c: char)
    requires d < 10
    ensures IsDigit(c) && DigitValue(c) == d
  {
    (('0' as int) + d) as char
  }

  /** The value of a digit string read most-significant first ("007" is 7). */
  function DigitsValue(s: string): nat
    requires AllDigits(s)
    decreases |s|
  {
    if |s| == 0 then 0 else 10 * DigitsValue(s[..|s| - 1]) + DigitValue(s[|s| - 1])
  }

  function Pow10(n: nat): (r: nat)
    ensures r >= 1
  {
    if n == 0 then 1 else 10 * Pow10(n - 1)
  }

  /** Position of the first `c` in `s`, if any. */
  function IndexOf(s: string, c: char): (r: Option<nat>)
    ensures r.Some? ==> r.value < |s| && s[r.value] == c && forall j :: 0 <= j < r.value ==> s[j] != c
    ensures r.None? ==> forall j :: 0 <= j < |s| ==> s[j] != c
    decreases |s|
  {
    if |s| == 0 then None
    else if s[0] == c then Some(0)
    else match IndexOf(s[1..], c)
      case None => None
      case Some(k) => Some(k + 1)
  }

  /** Characters a decimal numeral may hold, with `lead` the position a sign may occupy. */
  ghost predicate NumeralChars(s: string, lead: bool) {
    forall i :: 0 <= i < |s| ==> IsDigit(s[i]) || s[i] == '.' || (lead && i == 0 && (s[i] == '-' || s[i] == '+'))
  }

  ghost predicate HasDigit(s: string) {
    exists i :: 0 <= i < |s| && IsDigit(s[i])
  }

  /** The value of `whole.frac`: the whole part plus the fraction digits over a power of ten. */
  function DecimalReading(whole: string, frac: string): real
    requires AllDigits(whole) && AllDigits(frac)
  {
    DigitsValue(whole) as real + DigitsValue(frac) as real / Pow10(|frac|) as real
  }

  /** Digits with at most one '.', and at least one digit on either side of it. */
  function ParseUnsigned(s: string): (r: Option<real>)
    ensures r.Some? ==> NumeralChars(s, false) && HasDigit(s)
  {
    match IndexOf(s, '.')
    case None =>
      if |s| > 0 && AllDigits(s) then
        assert IsDigit(s[0]);
        Some(DigitsValue(s) as real)
      else None
    case Some(p) =>
      var whole, frac := s[..p], s[p + 1..];
      if AllDigits(whole) && AllDigits(frac) && |whole| + |frac| > 0 then
        assert s == whole + ['.'] + frac;
        assert |whole| > 0 ==> IsDigit(s[0]);
        assert |whole| == 0 ==> IsDigit(s[p + 1]);
        Some(DecimalReading(whole, frac))
      else None
  }

  /** A signed decimal numeral: optional '-' or '+', then an unsigned numeral.
      `None` stands for text Python's float conversion rejects. */
  function ParseNumber(s: string): (r: Option<real>)
    ensures r.Some? ==> NumeralChars(s, true) && HasDigit(s)
  {
    if |s| > 0 && (s[0] == '-' || s[0] == '+') then
      match ParseUnsigned(s[1..])
      case None => None
      case Some(v) =>
        assert forall i :: 1 <= i < |s| ==> s[i] == s[1..][i - 1];
        Some(if s[0] == '-' then -v else v)
    else ParseUnsigned(s)
  }

  /** Text with no digit in it (such as "Varies") is never a number. */
  lemma ParseRejectsDigitless(s: string)
    requires forall i :: 0 <= i < |s| ==> !IsDigit(s[i])
    ensures ParseNumber(s) == None
  {
  }

  /** Decimal rendering of a natural number, most-significant digit first. */
  function NatToString(n: nat): (s: string)
    ensures |s| > 0 && AllDigits(s)
    ensures DigitsValue(s) == n
    decreases n
  {
    var last := [DigitChar(n % 10)];
    if n < 10 then last
    else
      var r := NatToString(n / 10) + last;
      assert r[..|r| - 1] == NatToString(n / 10);
      r
  }

  /** Rendering a natural number and parsing it back gives the number. */
  lemma NatRoundTrip(n: nat)
    ensures ParseNumber(NatToString(n)) == Some(n as real)
  {
    var s := NatToString(n);
    assert s[0] != '-' && s[0] != '+' by { assert IsDigit(s[0]); }
    assert IndexOf(s, '.') == None;
  }

  /** A negative whole number written with a leading '-' parses to its value. */
  lemma NegativeRoundTrip(n: nat)
    ensures ParseNumber("-" + NatToString(n)) == Some(-(n as real))
  {
    var s := "-" + NatToString(n);
    assert s[1..] == NatToString(n);
    NatRoundTrip(n);
  }

  /** In digits, then '.', then anything, the first '.' is the one after the digits. */
  lemma IndexOfPointAfterDigits(a: string, b: string)
    requires AllDigits(a)
    ensures IndexOf(a + "." + b, '.') == Some(|a|)
  {
    var s := a + "." + b;
    var r := IndexOf(s, '.');
    assert s[|a|] == '.';
  }

  /** A digit string, a '.', and a digit string: the reading of a decimal fraction. */
  lemma ParseDecimalFraction(a: string, b: string)
    requires |a| > 0 && AllDigits(a) && AllDigits(b)
    ensures ParseNumber(a + "." + b) == Some(DecimalReading(a, b))
  {
    var s := a + "." + b;
    assert s[0] == a[0];
    IndexOfPointAfterDigits(a, b);
    assert s[..|a|] == a && s[|a| + 1..] == b;
    assert IsDigit(s[0]);
    assert ParseUnsigned(s) == Some(DecimalReading(a, b));
    assert ParseNumber(s) == ParseUnsigned(s);
  }

  /** `w.f` with both parts rendered in decimal parses to w + f / 10^(digits of f). */
  lemma FractionRoundTrip(w: nat, f: nat)
    ensures ParseNumber(NatToString(w) + "." + NatToString(f))
         == Some(w as real + f as real / Pow10(|NatToString(f)|) as real)
  {
    var a, b := NatToString(w), NatToString(f);
    ParseDecimalFraction(a, b);
    assert DigitsValue(a) == w && DigitsValue(b) == f;
  }
}

=== FILE: pipeline.dfy ===
/** The script end to end (generate_charts.py): load-time normalisation, then the
    numbers behind each of the twelve charts. */
module Pipeline {
  import opened Results
  import opened Sorting
  import opened Menu
  import opened Grouping
  import opened Charts

  /** What the twelve charts plot, chart by chart. */
  datatype Report = Report(
    calorieRanges: seq<Stat>,
    calorieErrorBars: seq<(real, real)>,
    sugar: seq<Stat>,
    sizes: seq<SizeMean>,
    caffeine: seq<Entry>,
    milk: seq<MilkEntry>,
    counts: seq<Tally>,
    protein: seq<Stat>,
    proteinColours: seq<Colour>,
    lowCalorie: seq<Entry>,
    coverageColours: seq<Colour>,
    sodium: seq<Stat>,
    topCalories: seq<TopItem>,
    carbohydrates: seq<Stat>,
    progression: seq<Progression>)

  /** Lines 51-357 over a normalised table. */
  function Analyze(rows: seq<Row>): (rep: Report)
    ensures Total(rep.counts, CountOf) == |rows|
    ensures |rep.topCalories| == if |rows| < TopCount then |rows| else TopCount
    ensures |rep.sizes| == |SizeOrder|
    ensures |rep.calorieErrorBars| == |rep.calorieRanges|
    ensures forall i :: 0 <= i < |rep.calorieErrorBars| ==>
      rep.calorieErrorBars[i].0 >= 0.0 && rep.calorieErrorBars[i].1 >= 0.0
    ensures forall i, j :: 0 <= i < j < |rep.proteinColours| ==> Rank(rep.proteinColours[i]) >= Rank(rep.proteinColours[j])
    ensures forall i, j :: 0 <= i < j < |rep.coverageColours| ==> Rank(rep.coverageColours[i]) >= Rank(rep.coverageColours[j])
  {
    var calories := CategoryStats(rows, Calories);
    var protein := CategoryStats(rows, Protein);
    var lowCalorie := LowCalorieCoverage(rows);
    StatsInRange(rows, Calories);
    Report(
      calories,
      ErrorBars(calories),
      CategoryStats(rows, Sugars),
      SizeMeans(rows),
      CaffeineByCategory(rows),
      MilkImpact(rows),
      CategoryCounts(rows),
      protein,
      ProteinColours(protein),
      lowCalorie,
      CoverageColours(lowCalorie),
      CategoryStats(rows, Sodium),
      TopItems(rows),
      CategoryStats(rows, Carbohydrates),
      SizeProgression(rows))
  }

  /** Every statistic row has its mean between its minimum and its maximum. */
  lemma StatsInRange(rows: seq<Row>, m: Measure)
    ensures forall i :: 0 <= i < |CategoryStats(rows, m)| ==>
      CategoryStats(rows, m)[i].min <= CategoryStats(rows, m)[i].mean <= CategoryStats(rows, m)[i].max
  {
    var stats := CategoryStats(rows, m);
    forall i | 0 <= i < |stats| ensures stats[i].min <= stats[i].mean <= stats[i].max {
      assert stats[i] in stats;
    }
  }

  /** Why the script stops: loading fails (lines 27-29), or `nlargest` (line 304) refuses
      the Calories column because `read_csv` typed it as text, which happens exactly when
      the table has no rows. */
  datatype ScriptError = Load(cause: LoadError) | NotNumeric(column: string)

  const CaloriesName: string := "Calories"

  /** The whole script: a percentage column read as numbers, or a malformed percentage
      cell, stops it before any chart; a table with no rows gets through loading and
      stops at chart 10; otherwise every chart is produced. Over a loaded table the
      counts of chart 6 add up to the number of menu rows and chart 5 names only the
      four recognised milks. */
  function GenerateCharts(raws: seq<RawRow>): (r: Result<Report, ScriptError>)
    ensures r.Ok? <==>
      |raws| > 0 && (forall col :: ReadAsText(raws, col)) && forall i :: 0 <= i < |raws| ==> NormalizeRow(raws[i]).Ok?
    ensures r.Err? ==>
      (|raws| == 0 && r.error == NotNumeric(CaloriesName)) ||
      (r.error.Load? && exists col :: !ReadAsText(raws, col) && r.error.cause == NotText(ColumnName(col))) ||
      (r.error.Load? && exists i, col :: 0 <= i < |raws| && PercentCell(raws[i], col) == Err(r.error.cause))
    ensures r.Ok? ==> Total(r.value.counts, CountOf) == |raws|
    ensures r.Ok? ==> |r.value.topCalories| == if |raws| < TopCount then |raws| else TopCount
    ensures r.Ok? ==> forall e :: e in r.value.milk ==> e.milk in MilkTypes
  {
    if |raws| == 0 then Err(NotNumeric(CaloriesName))
    else
      TextColumnsAll(raws);
      match LoadAndAnalyze(raws)
      case Err(e) => Err(Load(e))
      case Ok(rep) => Ok(rep)
  }

  /** Lines 27-357 over a table with rows: loading, then the charts. */
  function LoadAndAnalyze(raws: seq<RawRow>): (r: Result<Report, LoadError>)
    requires |raws| > 0
    ensures r.Ok? <==> TextColumns(raws) && forall i :: 0 <= i < |raws| ==> NormalizeRow(raws[i]).Ok?
    ensures r.Err? ==>
      (exists col :: !ReadAsText(raws, col) && r.error == NotText(ColumnName(col))) ||
      (exists i, col :: 0 <= i < |raws| && PercentCell(raws[i], col) == Err(r.error))
    ensures r.Ok? ==> Total(r.value.counts, CountOf) == |raws|
    ensures r.Ok? ==> |r.value.topCalories| == if |raws| < TopCount then |raws| else TopCount
    ensures r.Ok? ==> forall e :: e in r.value.milk ==> e.milk in MilkTypes
  {
    match Normalize(raws)
    case Err(e) =>
      NormalizeError(raws);
      Err(e)
    case Ok(rows) =>
      NormalizedLabels(raws);
      var rep := Analyze(rows);
      MilkNamesRecognised(rows, rep.milk);
      Ok(rep)
  }

  /** In a table whose labels were derived, chart 5 lists recognised milks only. */
  lemma MilkNamesRecognised(rows: seq<Row>, r: seq<MilkEntry>)
    requires forall x :: x in rows ==> x.milkType in MilkTypes || x.milkType == NoMilk
    requires forall i :: 0 <= i < |r| ==> r[i].milk != NoMilk && |Group(rows, ByMilkType, r[i].milk)| > 0
    ensures forall e :: e in r ==> e.milk in MilkTypes
  {
    forall e | e in r ensures e.milk in MilkTypes {
      var i :| 0 <= i < |r| && r[i] == e;
      var x := GroupWitness(rows, ByMilkType, e.milk);
    }
  }
}

=== FILE: results.dfy ===
/** Optional values and fallible results, used for missing readings (pandas NaN)
    and for the loader's malformed-value failure. */
module Results {

  /** A reading that may be absent: `None` plays the role of pandas' NaN marker. */
  datatype Option<+T> = None | Some(value: T)

  /** The outcome of an operation that either yields a value or fails with an error. */
  datatype Result<+T, +E> = Ok(value: T) | Err(error: E) {

    predicate IsFailure() {
      Err?
    }

    function PropagateFailure<U>(): Result<U, E>
      requires Err?
    {
      Err(error)
    }

    function Extract(): T
      requires Ok?
    {
      value
    }
  }
}

=== FILE: sorting.dfy ===
/** Ordering of analysis results: `sort_values` on one numeric key in either
    direction, and `nlargest`. pandas' default sort is not stable, so only the
    order of the keys and the multiset of entries are promised, never the order
    among entries with equal keys. */
module Sorting {

  ghost predicate NonIncreasing<T>(s: seq<T>, key: T -> real) {
    forall i, j :: 0 <= i < j < |s| ==> key(s[i]) >= key(s[j])
  }

  ghost predicate NonDecreasing<T>(s: seq<T>, key: T -> real) {
    forall i, j :: 0 <= i < j < |s| ==> key(s[i]) <= key(s[j])
  }

  /** Places `x` into a non-increasing sequence, ahead of entries with an equal key. */
  function Insert<T>(x: T, s: seq<T>, key: T -> real): (r: seq<T>)
    requires NonIncreasing(s, key)
    ensures NonIncreasing(r, key)
    ensures multiset(r) == multiset(s) + multiset{x}
    decreases |s|
  {
    if |s| == 0 then [x]
    else if key(x) >= key(s[0]) then
      Lead(x, s, key);
      [x] + s
    else
      var tail := Insert(x, s[1..], key);
      assert [s[0]] + s[1..] == s;
      Dominated(s[0], x, s[1..], tail, key);
      Lead(s[0], tail, key);
      [s[0]] + tail
  }

  /** An entry whose key is at least every later key can lead a non-increasing sequence. */
  lemma Lead<T>(y: T, t: seq<T>, key: T -> real)
    requires NonIncreasing(t, key)
    requires |t| == 0 || key(y) >= key(t[0])
    ensures NonIncreasing([y] + t, key)
    ensures multiset([y] + t) == multiset(t) + multiset{y}
  {
  }

  /** If `y` outranks `x` and all of `rest`, it outranks the first entry of any
      arrangement of `rest` with `x` added. */
  lemma Dominated<T>(y: T, x: T, rest: seq<T>, t: seq<T>, key: T -> real)
    requires NonIncreasing([y] + rest, key)
    requires key(y) >= key(x)
    requires multiset(t) == multiset(rest) + multiset{x}
    ensures |t| == 0 || key(y) >= key(t[0])
  {
    if |t| > 0 {
      assert t[0] in multiset(t);
      if t[0] != x {
        assert t[0] in multiset(rest);
        var i :| 0 <= i < |rest| && rest[i] == t[0];
        assert ([y] + rest)[i + 1] == t[0];
        assert ([y] + rest)[0] == y;
        assert key(([y] + rest)[0]) >= key(([y] + rest)[i + 1]);
      }
    }
  }

  /** `sort_values(ascending=False)`: a permutation in non-increasing key order. */
  function SortDescending<T>(s: seq<T>, key: T -> real): (r: seq<T>)
    ensures NonIncreasing(r, key)
    ensures multiset(r) == multiset(s)
    ensures |r| == |s|
    decreases |s|
  {
    if |s| == 0 then []
    else
      assert s == [s[0]] + s[1..];
      Insert(s[0], SortDescending(s[1..], key), key)
  }

  /** `sort_values(ascending=True)`: a permutation in non-decreasing key order. */
  function SortAscending<T>(s: seq<T>, key: T -> real): (r: seq<T>)
    ensures NonDecreasing(r, key)
    ensures multiset(r) == multiset(s)
    ensures |r| == |s|
  {
    var r := SortDescending(s, x => -key(x));
    assert forall i, j :: 0 <= i < j < |r| ==> -key(r[i]) >= -key(r[j]);
    r
  }

  /** Total of an integer weight over a sequence. */
  function Total<T>(s: seq<T>, weight: T -> int): int {
    if |s| == 0 then 0 else weight(s[0]) + Total(s[1..], weight)
  }

  lemma {:induction false} TotalInsert<T>(x: T, s: seq<T>, key: T -> real, weight: T -> int)
    requires NonIncreasing(s, key)
    ensures Total(Insert(x, s, key), weight) == weight(x) + Total(s, weight)
    decreases |s|
  {
    if |s| > 0 && key(x) < key(s[0]) {
      TotalInsert(x, s[1..], key, weight);
      var r := Insert(x, s, key);
      assert r[1..] == Insert(x, s[1..], key);
    } else if |s| > 0 {
      assert ([x] + s)[1..] == s;
    }
  }

  /** Sorting does not change the total of any weight. */
  lemma {:induction false} TotalSortDescending<T>(s: seq<T>, key: T -> real, weight: T -> int)
    ensures Total(SortDescending(s, key), weight) == Total(s, weight)
    decreases |s|
  {
    if |s| > 0 {
      TotalSortDescending(s[1..], key, weight);
      TotalInsert(s[0], SortDescending(s[1..], key), key, weight);
    }
  }

  lemma TotalSortAscending<T>(s: seq<T>, key: T -> real, weight: T -> int)
    ensures Total(SortAscending(s, key), weight) == Total(s, weight)
  {
    TotalSortDescending(s, x => -key(x), weight);
  }

  /** `nlargest(n)`: the `n` entries with the largest keys (all of them when there
      are fewer), in non-increasing key order; nothing left out outranks anything
      kept. */
  function Largest<T>(s: seq<T>, n: nat, key: T -> real): (r: seq<T>)
    ensures |r| == (if n <= |s| then n else |s|)
    ensures NonIncreasing(r, key)
    ensures multiset(r) <= multiset(s)
    ensures forall a, b :: a in multiset(s) - multiset(r) && b in r ==> key(a) <= key(b)
  {
    var t := SortDescending(s, key);
    var k := if n <= |s| then n else |s|;
    LargestPrefix(t, k, key);
    t[..k]
  }

  /** Splitting a non-increasing sequence at `k`: the prefix dominates the rest. */
  lemma LargestPrefix<T>(t: seq<T>, k: nat, key: T -> real)
    requires NonIncreasing(t, key)
    requires k <= |t|
    ensures multiset(t[..k]) <= multiset(t)
    ensures multiset(t) - multiset(t[..k]) == multiset(t[k..])
    ensures forall a, b :: a in multiset(t) - multiset(t[..k]) && b in t[..k] ==> key(a) <= key(b)
  {
    assert t == t[..k] + t[k..];
    assert multiset(t) == multiset(t[..k]) + multiset(t[k..]);
    forall a, b | a in multiset(t[k..]) && b in t[..k]
      ensures key(a) <= key(b)
    {
      var ia :| 0 <= ia < |t[k..]| && t[k..][ia] == a;
      var ib :| 0 <= ib < k && t[..k][ib] == b;
      assert t[ib] == b && t[k + ia] == a;
    }
  }

  /** No two entries share a name. */
  ghost predicate DistinctBy<T>(s: seq<T>, name: T -> string) {
    forall i, j :: 0 <= i < j < |s| ==> name(s[i]) != name(s[j])
  }

  /** An element at two positions is counted at least twice. */
  lemma CountedTwice<T>(s: seq<T>, i: nat, j: nat)
    requires i < j < |s| && s[i] == s[j]
    ensures multiset(s)[s[i]] >= 2
  {
    assert s == s[..j] + s[j..];
    assert s[..j][i] == s[i];
    assert s[j..][0] == s[j];
  }

  /** An element counted at least twice sits at two distinct positions. */
  lemma TwoPositions<T>(s: seq<T>, x: T) returns (i: nat, j: nat)
    requires multiset(s)[x] >= 2
    ensures i < j < |s| && s[i] == x && s[j] == x
  {
    assert x in multiset(s);
    var p :| 0 <= p < |s| && s[p] == x;
    assert s == s[..p] + [s[p]] + s[p + 1..];
    assert multiset(s)[x] == multiset(s[..p])[x] + 1 + multiset(s[p + 1..])[x];
    if multiset(s[p + 1..])[x] > 0 {
      var q :| 0 <= q < |s[p + 1..]| && s[p + 1..][q] == x;
      i, j := p, p + 1 + q;
    } else {
      assert x in multiset(s[..p]);
      var q :| 0 <= q < p && s[..p][q] == x;
      i, j := q, p;
    }
  }

  /** Taking a sub-multiset, in particular reordering, keeps names distinct. */
  lemma DistinctBySubset<T>(a: seq<T>, b: seq<T>, name: T -> string)
    requires multiset(b) <= multiset(a)
    requires DistinctBy(a, name)
    ensures DistinctBy(b, name)
  {
    forall i, j | 0 <= i < j < |b|
      ensures name(b[i]) != name(b[j])
    {
      if b[i] == b[j] {
        CountedTwice(b, i, j);
        var p, q := TwoPositions(a, b[i]);
      } else {
        assert b[i] in multiset(a) && b[j] in multiset(a);
        var p :| 0 <= p < |a| && a[p] == b[i];
        var q :| 0 <= q < |a| && a[q] == b[j];
        assert p != q;
        if p > q {
          assert name(a[q]) != name(a[p]);
        }
      }
    }
  }

  /** A reordering has the same members and keeps names distinct. */
  lemma Reordered<T>(u: seq<T>, r: seq<T>, name: T -> string)
    requires multiset(r) == multiset(u)
    requires DistinctBy(u, name)
    ensures forall e :: e in r <==> e in u
    ensures DistinctBy(r, name)
  {
    assert forall e :: e in r <==> e in multiset(r);
    assert forall e :: e in u <==> e in multiset(u);
    DistinctBySubset(u, r, name);
  }
}

=== FILE: stats.dfy ===
/** The per-group statistics the analyses compute, over exact reals:
    pandas' `mean`, `min`, `max` (missing values skipped) and the share of
    values below a threshold. */
module Stats {
  import opened Results

  function Sum(xs: seq<real>): real {
    if |xs| == 0 then 0.0 else xs[0] + Sum(xs[1..])
  }

  function Min(xs: seq<real>): (m: real)
    requires |xs| > 0
    ensures m in xs
    ensures forall i :: 0 <= i < |xs| ==> m <= xs[i]
  {
    if |xs| == 1 then xs[0]
    else
      var rest := Min(xs[1..]);
      if xs[0] <= rest then xs[0] else rest
  }

  function Max(xs: seq<real>): (m: real)
    requires |xs| > 0
    ensures m in xs
    ensures forall i :: 0 <= i < |xs| ==> xs[i] <= m
  {
    if |xs| == 1 then xs[0]
    else
      var rest := Max(xs[1..]);
      if xs[0] >= rest then xs[0] else rest
  }

  /** Bounds on every element bound the sum by the count times the bound. */
  lemma {:induction false} SumBounds(xs: seq<real>, lo: real, hi: real)
    requires forall i :: 0 <= i < |xs| ==> lo <= xs[i] <= hi
    ensures |xs| as real * lo <= Sum(xs) <= |xs| as real * hi
  {
    if |xs| > 0 {
      SumBounds(xs[1..], lo, hi);
    }
  }

  /** Dividing by a positive count carries bounds over. */
  lemma Quotient(s: real, n: real, lo: real, hi: real)
    requires n > 0.0
    requires n * lo <= s <= n * hi
    ensures lo <= s / n <= hi
  {
  }

  /** A sample within bounds has its mean within the same bounds. */
  lemma MeanWithin(xs: seq<real>, lo: real, hi: real)
    requires |xs| > 0
    requires forall i :: 0 <= i < |xs| ==> lo <= xs[i] <= hi
    ensures lo <= Sum(xs) / |xs| as real <= hi
  {
    SumBounds(xs, lo, hi);
    Quotient(Sum(xs), |xs| as real, lo, hi);
  }

  /** The arithmetic mean of a non-empty sample. */
  function Mean(xs: seq<real>): (m: real)
    requires |xs| > 0
    ensures Min(xs) <= m <= Max(xs)
  {
    MeanWithin(xs, Min(xs), Max(xs));
    Sum(xs) / |xs| as real
  }

  /** A mean of strictly positive values is strictly positive. */
  lemma MeanPositive(xs: seq<real>)
    requires |xs| > 0
    requires forall i :: 0 <= i < |xs| ==> xs[i] > 0.0
    ensures Mean(xs) > 0.0
  {
    assert Min(xs) > 0.0;
  }

  /** The values present among possibly-missing readings, in order. */
  function Present(cells: seq<Option<real>>): (xs: seq<real>)
    ensures forall x :: x in xs <==> Some(x) in cells
    ensures forall x {:trigger multiset(xs)[x]} :: multiset(xs)[x] == multiset(cells)[Some(x)]
    ensures |xs| == PresentCount(cells)
  {
    if |cells| == 0 then []
    else
      var rest := Present(cells[1..]);
      assert forall c :: c in cells <==> c == cells[0] || c in cells[1..];
      assert cells == [cells[0]] + cells[1..];
      match cells[0]
      case Some(v) => [v] + rest
      case None => rest
  }

  function PresentCount(cells: seq<Option<real>>): nat {
    if |cells| == 0 then 0 else (if cells[0].Some? then 1 else 0) + PresentCount(cells[1..])
  }

  function MissingCount(cells: seq<Option<real>>): nat {
    if |cells| == 0 then 0 else (if cells[0].None? then 1 else 0) + MissingCount(cells[1..])
  }

  /** Every reading is either present or missing. */
  lemma {:induction false} PresentPlusMissing(cells: seq<Option<real>>)
    ensures PresentCount(cells) + MissingCount(cells) == |cells|
  {
    if |cells| > 0 {
      PresentPlusMissing(cells[1..]);
    }
  }

  /** Every reading is missing exactly when the missing count is the whole length. */
  lemma {:induction false} AllMissing(cells: seq<Option<real>>)
    ensures MissingCount(cells) == |cells| <==> forall i :: 0 <= i < |cells| ==> cells[i].None?
  {
    if |cells| > 0 {
      AllMissing(cells[1..]);
      assert MissingCount(cells[1..]) <= |cells[1..]| by { PresentPlusMissing(cells[1..]); }
      assert forall i :: 1 <= i < |cells| ==> cells[i] == cells[1..][i - 1];
    }
  }

  /** pandas' `mean` with NaN skipped: the mean of the present values, dividing by
      their number (not by the number of readings), and missing exactly when every
      reading is missing. */
  function MeanSkipMissing(cells: seq<Option<real>>): (r: Option<real>)
    ensures r.None? <==> MissingCount(cells) == |cells|
    ensures r.Some? ==> |Present(cells)| > 0 && r.value == Mean(Present(cells))
  {
    PresentPlusMissing(cells);
    var xs := Present(cells);
    if |xs| == 0 then None
    else
      Some(Mean(xs))
  }

  /** How many values lie strictly below `t`: `(x < t).sum()`. */
  function CountBelow(xs: seq<real>, t: real): (n: nat)
    ensures n <= |xs|
  {
    if |xs| == 0 then 0 else (if xs[0] < t then 1 else 0) + CountBelow(xs[1..], t)
  }

  /** The positions of the values below `t`. */
  ghost function BelowPositions(xs: seq<real>, t: real): set<int> {
    set i | 0 <= i < |xs| && xs[i] < t
  }

  /** One more value adds one to the count exactly when it is below `t`. */
  lemma {:induction false} CountBelowAppend(xs: seq<real>, x: real, t: real)
    ensures CountBelow(xs + [x], t) == CountBelow(xs, t) + (if x < t then 1 else 0)
  {
    if |xs| > 0 {
      assert (xs + [x])[1..] == xs[1..] + [x];
      CountBelowAppend(xs[1..], x, t);
    } else {
      assert (xs + [x])[1..] == [];
    }
  }

  /** The count is the number of positions holding a value below `t`. */
  lemma {:induction false} CountBelowPositions(xs: seq<real>, t: real)
    ensures CountBelow(xs, t) == |BelowPositions(xs, t)|
  {
    if |xs| == 0 {
      assert BelowPositions(xs, t) == {};
    } else {
      var n := |xs| - 1;
      var init := xs[..n];
      CountBelowPositions(init, t);
      assert xs == init + [xs[n]];
      CountBelowAppend(init, xs[n], t);
      if xs[n] < t {
        assert BelowPositions(xs, t) == BelowPositions(init, t) + {n};
      } else {
        assert BelowPositions(xs, t) == BelowPositions(init, t);
      }
    }
  }

  /** The count reaches the length exactly when every value is below the threshold. */
  lemma {:induction false} CountBelowAll(xs: seq<real>, t: real)
    ensures CountBelow(xs, t) == |xs| <==> forall i :: 0 <= i < |xs| ==> xs[i] < t
  {
    if |xs| > 0 {
      CountBelowAll(xs[1..], t);
    }
  }

  /** The count is zero exactly when no value is below the threshold. */
  lemma {:induction false} CountBelowNone(xs: seq<real>, t: real)
    ensures CountBelow(xs, t) == 0 <==> forall i :: 0 <= i < |xs| ==> xs[i] >= t
  {
    if |xs| > 0 {
      CountBelowNone(xs[1..], t);
    }
  }

  lemma PercentBounds(k: nat, n: nat)
    requires 0 < n && k <= n
    ensures 0.0 <= k as real / n as real * 100.0 <= 100.0
    ensures k as real / n as real * 100.0 == 100.0 <==> k == n
    ensures k as real / n as real * 100.0 == 0.0 <==> k == 0
  {
    assert k as real / n as real <= 1.0;
  }

  /** `(x < t).sum() / len(x) * 100`: the share of the sample below `t`, in percent. */
  function PercentBelow(xs: seq<real>, t: real): (p: real)
    requires |xs| > 0
    ensures p == |BelowPositions(xs, t)| as real / |xs| as real * 100.0
    ensures 0.0 <= p <= 100.0
    ensures p == 100.0 <==> forall i :: 0 <= i < |xs| ==> xs[i] < t
    ensures p == 0.0 <==> forall i :: 0 <= i < |xs| ==> xs[i] >= t
  {
    var k := CountBelow(xs, t);
    PercentBounds(k, |xs|);
    CountBelowPositions(xs, t);
    CountBelowAll(xs, t);
    CountBelowNone(xs, t);
    k as real / |xs| as real * 100.0
  }

  /** Two of the four calorie values 100, 200, 140 and 160 lie below 150: a share of 50%. */
  lemma PercentBelowExample()
    ensures PercentBelow([100.0, 200.0, 140.0, 160.0], 150.0) == 50.0
  {
    var xs := [100.0, 200.0, 140.0, 160.0];
    assert BelowPositions(xs, 150.0) == {0, 2};
  }
}

=== FILE: text.dfy ===
/** String rules the script relies on: Python's `in` on strings, slicing with
    `[:n]`, `str.rstrip(c)` and the code-point ordering used to sort group keys. */
module Text {

  /** `t` occurs in `s` at some position: the meaning of Python's `t in s`. */
  ghost predicate Occurs(t: string, s: string) {
    exists i :: OccursAt(t, s, i)
  }

  /** `t` starts at position `i` of `s`. */
  ghost predicate OccursAt(t: string, s: string, i: int) {
    0 <= i <= |s| - |t| && s[i..i + |t|] == t
  }

  predicate IsPrefix(t: string, s: string) {
    |t| <= |s| && s[..|t|] == t
  }

  /** Executable substring test, scanning `s` from the left. */
  predicate Contains(s: string, t: string)
    decreases |s|
  {
    IsPrefix(t, s) || (|s| > 0 && Contains(s[1..], t))
  }

  /** The executable test agrees with the positional definition, in both directions. */
  lemma {:induction false} ContainsIffOccurs(s: string, t: string)
    ensures Contains(s, t) <==> Occurs(t, s)
    decreases |s|
  {
    if IsPrefix(t, s) {
      assert OccursAt(t, s, 0);
    } else if |s| == 0 {
    } else {
      ContainsIffOccurs(s[1..], t);
      if Occurs(t, s[1..]) {
        var i :| OccursAt(t, s[1..], i);
        assert s[i + 1..i + 1 + |t|] == s[1..][i..i + |t|];
        assert OccursAt(t, s, i + 1);
      }
      if Occurs(t, s) {
        var i :| OccursAt(t, s, i);
        if i > 0 {
          assert s[1..][i - 1..i - 1 + |t|] == t;
          assert OccursAt(t, s[1..], i - 1);
        }
      }
    }
  }

  /** Python's `s[:n]` for a non-negative `n`. */
  function Truncate(s: string, n: nat): (r: string)
    ensures |r| == (if |s| <= n then |s| else n)
    ensures IsPrefix(r, s)
  {
    if |s| <= n then s else s[..n]
  }

  /** Python's `s.rstrip(c)`: every trailing `c` removed. */
  function StripTrailing(s: string, c: char): (r: string)
    ensures IsPrefix(r, s)
    ensures |r| == 0 || r[|r| - 1] != c
    ensures forall i :: |r| <= i < |s| ==> s[i] == c
    decreases |s|
  {
    if |s| > 0 && s[|s| - 1] == c then StripTrailing(s[..|s| - 1], c) else s
  }

  /** Appending more copies of `c` does not change what rstrip leaves. */
  lemma {:induction false} StripTrailingAbsorbs(s: string, c: char)
    ensures StripTrailing(s + [c], c) == StripTrailing(s, c)
  {
    assert (s + [c])[..|s + [c]| - 1] == s;
  }

  /** A string that does not end in `c` is left alone by rstrip. */
  lemma StripTrailingNoop(s: string, c: char)
    requires |s| == 0 || s[|s| - 1] != c
    ensures StripTrailing(s, c) == s
  {
  }

  /** Python's `<` on strings: lexicographic on code points, a proper prefix first. */
  predicate LexLess(a: string, b: string)
    decreases |a|
  {
    |b| > 0 && (|a| == 0 || a[0] < b[0] || (a[0] == b[0] && LexLess(a[1..], b[1..])))
  }

  lemma {:induction false} LexLessIrreflexive(a: string)
    ensures !LexLess(a, a)
    decreases |a|
  {
    if |a| > 0 {
      LexLessIrreflexive(a[1..]);
    }
  }

  lemma {:induction false} LexLessTransitive(a: string, b: string, c: string)
    requires LexLess(a, b) && LexLess(b, c)
    ensures LexLess(a, c)
    decreases |a|
  {
    if |a| > 0 && a[0] == b[0] && b[0] == c[0] {
      LexLessTransitive(a[1..], b[1..], c[1..]);
    }
  }

  /** Two different strings are always ordered one way or the other. */
  lemma {:induction false} LexLessTotal(a: string, b: string)
    requires a != b
    ensures LexLess(a, b) || LexLess(b, a)
    decreases |a|
  {
    if |a| > 0 && |b| > 0 && a[0] == b[0] {
      assert a == [a[0]] + a[1..] && b == [b[0]] + b[1..];
      LexLessTotal(a[1..], b[1..]);
    }
  }
}
